=== FILE: README.md ===
# Throughput sweep collector, modelled in Dafny

`collect_genai_tokens_per_s.py` runs the `benchmark_genai` executable for
every pair of a sequence length ("seqlen") and a model variant. From each
run's output it extracts the reported throughput in tokens per second. It
keeps a CSV matrix of the results on disk, rewriting the file after every
cell. This project models that program's logic as pure functions and
proves what it guarantees.

The modules follow the program's parts:

- `Wrappers` holds `Option` and `Result`; `Sequences` holds generic
  sequence facts such as `Distinct`.
- `Decimal` models `str()` and `int()` on integers, as the program uses them
  for seqlens.
- `Seqlens` models `parse_seqlens_arg`:
  - splitting each argument on commas and dropping empty fragments;
  - parsing each fragment and rejecting values below one;
  - dropping repeats, keeping first occurrences;
  - the empty-list error.

  It also models `DEFAULT_SEQLENS`, the ladder of powers of two.
- `Throughput` models `_THROUGHPUT_RE` and `parse_throughput_tokens_per_s`.
  The regular expression becomes a hand-written scanner: the label, optional
  whitespace, a numeral, an optional `± <numeral>` group, and the unit
  `tokens/s`. `finditer` becomes a left-to-right search that resumes at each
  match's end. The extractor returns the matched numeral text of the last
  match.
- `SummaryLines` covers the line the benchmark prints,
  `Throughput: <v>[ ± <std>] tokens/s`, and proves which value the extractor
  reads out of logs that contain it.
- `Command` models the argument vector of `run_one`: an optional
  `taskset -c <core>` prefix, then `<binary> -m <model_dir> --yjp <seqlen>`.
- `CsvMatrix` models the rows `write_csv_matrix` emits: a header, then one
  row per seqlen. A missing value becomes an empty field. A reader serves
  as the inverse.
- `Sweep` models the nested loop of `main` as a fold over the (seqlen, model)
  cells. The model-directory check, the benchmark process and the extractor
  are parameters. Each step may record a run (`Invoke`) and always records
  one write of the whole matrix (`Persist`).
- `SweepFacts` proves what the sweep guarantees:
  - the number and contents of the writes;
  - which cells cause a run;
  - that exit codes play no part;
  - that every written snapshot reads back as the expected matrix.
- `Driver` models `main`: the defaults, the missing-binary check, the seqlen
  check (both end with exit code 2 before anything is written), and the
  sweep with the throughput extractor.
- `Scenarios` holds worked examples of the resolver and of a sweep where
  one model is not installed.

## Behaviour followed

- A run that exits with a non-zero code still fills its cell with whatever
  the extractor finds in its output (lines 155-165). It is not treated as a
  failed, empty cell. `SweepFacts.ExitCodeIgnored` states this.
- The program makes no distinction between a cell not yet measured and a
  cell measured without a value: both are `None` (lines 134, 147 and 165)
  and both are written as an empty field. The model keeps this single
  representation.

## Model

| member | source | states |
|---|---|---|
| Decimal.ShowNat | collect_genai_tokens_per_s.py:76 | `str(n)` for `n >= 0` is a non-empty run of ASCII digits whose decimal value is `n`, with no leading zero unless `n` is 0 |
| Decimal.ShowInt | collect_genai_tokens_per_s.py:76 | `str(n)` is non-empty and starts with a digit exactly when `n >= 0` |
| Decimal.ParseInt | collect_genai_tokens_per_s.py:50 | `int(t)` succeeds exactly on an optional `+`/`-` followed by at least one ASCII digit |
| Decimal.ParseShowInt | collect_genai_tokens_per_s.py:76 | the seqlen text placed on the command line and in the CSV reads back through `int()` as the same integer |
| Decimal.ParseSigned | collect_genai_tokens_per_s.py:50 | `int("+" + d)` is `int(d)` and `int("-" + d)` is `-int(d)` for a digit string `d` |
| Decimal.ParseLeadingZero | collect_genai_tokens_per_s.py:50 | a leading zero does not change the value: `int("0" + d)` is `int(d)` for a digit string `d` |
| Decimal.ShowNatCanonical | collect_genai_tokens_per_s.py:50 | every digit string without a leading zero is `str()` of its value, so with the sign and leading-zero lemmas and `ParseShowInt` the value of every accepted text is fixed (`int("+8") == int("08") == 8`, `int("-007") == -7`) |
| Seqlens.Split | collect_genai_tokens_per_s.py:44 | `v.split(",")` has one piece more than `v` has commas, and no piece contains a comma |
| Seqlens.JoinSplit | collect_genai_tokens_per_s.py:44 | joining the pieces of `v.split(",")` with commas gives `v` back, so splitting loses nothing |
| Seqlens.SplitJoin | collect_genai_tokens_per_s.py:44 | splitting the comma-join of comma-free pieces gives exactly those pieces |
| Seqlens.NonEmpty | collect_genai_tokens_per_s.py:44 | the `t != ""` filter keeps only non-empty pieces, each one taken from the input, and keeps every non-empty piece as often as it occurs |
| Seqlens.NonEmptyOne | collect_genai_tokens_per_s.py:44 | the filter drops a single piece exactly when it is empty |
| Seqlens.NonEmptyAppend | collect_genai_tokens_per_s.py:44 | the filter works piece by piece and keeps the order, so with `NonEmptyOne` it is fixed on every input |
| Seqlens.NonEmptyKeepsAll | collect_genai_tokens_per_s.py:44 | the filter drops nothing when no piece is empty |
| Seqlens.Fragments | collect_genai_tokens_per_s.py:42-44 | every collected token is non-empty and contains no comma |
| Seqlens.FragmentsOfOne | collect_genai_tokens_per_s.py:43-44 | the tokens of one argument are the non-empty pieces of its comma split |
| Seqlens.FragmentsAppend | collect_genai_tokens_per_s.py:43-44 | the arguments are handled one after the other: the tokens of two argument lists in a row are the tokens of each, in order |
| Seqlens.FragmentsOfJoined | collect_genai_tokens_per_s.py:42-44 | one comma-separated argument yields exactly the tokens that were joined to form it |
| Seqlens.Parsed | collect_genai_tokens_per_s.py:48-54 | when every token passes, the parsed list has one integer per token, equal to `int(token)` and at least 1 |
| Seqlens.FirstOccurrenceStep | collect_genai_tokens_per_s.py:55-57 | appending `n` only when it is not yet seen keeps the list equal to the distinct values so far in first-occurrence order |
| Seqlens.ResolveFrom | collect_genai_tokens_per_s.py:48-57 | the loop succeeds exactly when every remaining token is an integer of at least 1; a success extends the list kept so far, and a failure is never the empty-list error |
| Seqlens.ResolveFromAccepts | collect_genai_tokens_per_s.py:48-57 | when every remaining token passes, the loop succeeds and its list is the distinct values in first-occurrence order |
| Seqlens.ResolveFromRejects | collect_genai_tokens_per_s.py:48-54 | the loop fails with the error of the first rejected token, whatever it kept before |
| Seqlens.ResolveAccepted | collect_genai_tokens_per_s.py:46-57 | starting empty with all tokens passing: success, first-occurrence order, every value at least 1, and an empty list exactly when there are no tokens |
| Seqlens.ResolveFromFails | collect_genai_tokens_per_s.py:49-54 | if any token fails, the loop fails with the first failing token's error and never with the empty-list error |
| Seqlens.Resolve | collect_genai_tokens_per_s.py:40-60 | success exactly when some token remains and all pass. A success is non-empty, repeat-free, all values at least 1, in first-occurrence order. Otherwise the first bad token's error (invalid text or below minimum), or the empty-list error exactly when no token remains |
| Seqlens.DefaultSeqlens | collect_genai_tokens_per_s.py:21-37 | the default ladder has 15 entries, entry `i` is `2^i`, it is strictly increasing, and it satisfies the resolved-list invariant |
| Throughput.SkipSpaces | collect_genai_tokens_per_s.py:14 | `\s*` consumes whitespace only and stops at the first non-whitespace character |
| Throughput.SkipDigits | collect_genai_tokens_per_s.py:15 | a `\d` run consumes digits only and stops at the first non-digit |
| Throughput.MantissaEnd | collect_genai_tokens_per_s.py:15 | the mantissa scan, when it succeeds, consumes a non-empty stretch of digits and points inside the text |
| Throughput.MantissaExact | collect_genai_tokens_per_s.py:15 | a mantissa of the form `\d+(\.\d*)?` or `\.\d+` that is not followed by a digit or a point is consumed exactly |
| Throughput.ExponentEnd | collect_genai_tokens_per_s.py:15 | the exponent scan stays inside the text and consumes numeral characters only |
| Throughput.ExponentExact | collect_genai_tokens_per_s.py:15 | an exponent of the form `[eE][+-]?\d+`, or none, that is not followed by a numeral character is consumed exactly |
| Throughput.MantissaEndSound | collect_genai_tokens_per_s.py:15 | the scanned mantissa has the form `\d+(\.\d*)?` or `\.\d+` |
| Throughput.ExponentEndSound | collect_genai_tokens_per_s.py:15 | the scanned exponent is empty or has the form `[eE][+-]?\d+` |
| Throughput.ScanNumeral | collect_genai_tokens_per_s.py:15 | a scanned numeral is non-empty and consists of numeral characters only |
| Throughput.ScanNumeralSound | collect_genai_tokens_per_s.py:15 | whatever the numeral scanner consumes matches the `val` group's grammar |
| Throughput.ScanNumeralExact | collect_genai_tokens_per_s.py:15 | a numeral of the grammar that is not followed by a numeral character is consumed exactly, so greedy scanning finds the regex's numeral |
| Throughput.UnitEnd | collect_genai_tokens_per_s.py:17 | `\s*tokens/s` ends right after an occurrence of `tokens/s` |
| Throughput.MatchAt | collect_genai_tokens_per_s.py:13-18 | a match at position `i` starts at `i` with the label's `T` and ends within the text |
| Throughput.MatchAtLayout | collect_genai_tokens_per_s.py:13-18 | the match at `i` ends at `z` with value `v` and std `std` exactly when the text from `i` to `z` is the label, whitespace, the numeral `v`, then either whitespace and `tokens/s` (no std) or whitespace, `±`, whitespace, the numeral `std`, whitespace and `tokens/s` |
| Throughput.MatchAtNumerals | collect_genai_tokens_per_s.py:15-16 | a match's value, and its std when present, are numerals of the grammar |
| Throughput.MatchWithoutT | collect_genai_tokens_per_s.py:13-18 | a match holds no `T` after its first character, so no match starts inside another |
| Throughput.Scan | collect_genai_tokens_per_s.py:64 | every match found lies in the searched range and is the match at its own start |
| Throughput.ScanLast | collect_genai_tokens_per_s.py:64 | the search finds nothing exactly when no position matches; otherwise its last match is at the last matching position |
| Throughput.FindIter | collect_genai_tokens_per_s.py:64 | each match `finditer` yields starts inside the text and is the match at that position |
| Throughput.FindIterEmpty | collect_genai_tokens_per_s.py:64-66 | `finditer` yields nothing exactly when no position of the text matches |
| Throughput.FindIterLast | collect_genai_tokens_per_s.py:64-68 | the last match `finditer` yields is at the greatest position where a match starts |
| Throughput.Extract | collect_genai_tokens_per_s.py:63-68 | the extractor returns nothing exactly when no position of the text matches |
| Throughput.LastMatchUnique | collect_genai_tokens_per_s.py:67-68 | there is at most one last match |
| Throughput.ExtractLast | collect_genai_tokens_per_s.py:63-68 | the extractor returns the value group of the last match |
| Throughput.ExtractNumeral | collect_genai_tokens_per_s.py:68 | an extracted value is always a numeral of the grammar, so `float()` cannot fail on it |
| SummaryLines.SummaryLineMatches | collect_genai_tokens_per_s.py:13-18 | the benchmark's summary line with numerals `v` and optional std is a match, with value `v`, spanning the line |
| SummaryLines.LastSummaryWins | collect_genai_tokens_per_s.py:63-68 | a log whose final summary line has value `v`, with no `T` after it, yields `v` whatever comes before |
| SummaryLines.NoLabelNoValue | collect_genai_tokens_per_s.py:63-66 | a log without the letter `T` yields nothing |
| SummaryLines.ExampleLog | collect_genai_tokens_per_s.py:63-68 | a warm-up line, a progress line at 12.3 and a summary line at 45.6 ± 0.4 yield `45.6` |
| SummaryLines.DecimalNumeral | collect_genai_tokens_per_s.py:15 | `<digits>.<digits>` is a numeral of the grammar |
| Command.PinPrefix | collect_genai_tokens_per_s.py:72-74 | the prefix is `taskset -c <core>` exactly when a core is given and `taskset` is found, and empty otherwise |
| Command.BenchArgs | collect_genai_tokens_per_s.py:76 | the five benchmark arguments read back into the binary, the model directory and the seqlen they were built from |
| Command.CommandLine | collect_genai_tokens_per_s.py:71-76 | the argument vector has 8 entries, starting `taskset -c <core>`, when a core is given and `taskset` is found, and 5 otherwise; the last five are always `binary -m dir --yjp seqlen` |
| Command.ParseCommandLineInverse | collect_genai_tokens_per_s.py:72-76 | the argument vector can be read back into its binary, model directory, seqlen and (if pinned) core |
| Command.CommandLineInjective | collect_genai_tokens_per_s.py:76 | distinct binaries, model directories or seqlens give distinct argument vectors |
| CsvMatrix.Get | collect_genai_tokens_per_s.py:94 | `values.get(m)` is `values[m]` for a key `m` and `None` otherwise, so it has a value exactly when `m` is a key whose value is not `None` |
| CsvMatrix.Cell | collect_genai_tokens_per_s.py:94 | a field is the stored value `values[m]` when `m` is a key holding a value, and the empty string when `m` is missing or holds `None` |
| CsvMatrix.Header | collect_genai_tokens_per_s.py:92 | the header is `seqlen` followed by the models in order |
| CsvMatrix.Fields | collect_genai_tokens_per_s.py:94 | a data row has one field more than there are models: the seqlen's decimal text, then the cell of each model in order |
| CsvMatrix.CsvRows | collect_genai_tokens_per_s.py:91-94 | the file is the header followed by one data row per matrix row, in order |
| CsvMatrix.ReadFieldsOfRow | collect_genai_tokens_per_s.py:94 | when no stored value is empty text, a written row reads back as its seqlen and each model's value |
| CsvMatrix.ReadCsvRows | collect_genai_tokens_per_s.py:91-94 | when no stored value is empty text, a written file reads back as the matrix, row by row |
| Sweep.ModelDir | collect_genai_tokens_per_s.py:144 | the model directory is the root, then `/model/`, then the model name |
| Sweep.Step | collect_genai_tokens_per_s.py:143-170 | one cell sets exactly its own entry to the cell's value (nothing for a missing directory), leaves every other entry and row unchanged, runs the benchmark only when the directory exists, and then writes once |
| Sweep.RunModels | collect_genai_tokens_per_s.py:143-170 | the inner loop changes only the row of its seqlen, keeps that row's seqlen and only appends events |
| Sweep.RunRows | collect_genai_tokens_per_s.py:141-170 | the outer loop leaves the rows already done alone, keeps every row's seqlen and only appends events |
| Sweep.RunSweep | collect_genai_tokens_per_s.py:133-170 | the sweep ends with every cell holding its value; its events are the write of the empty table, then for each cell in seqlen-major order a run when its directory exists and a write of the matrix holding exactly the cells done so far |
| Sweep.PosOrder | collect_genai_tokens_per_s.py:141-143 | cells are visited seqlen-major, model-minor |
| Sweep.CellAt | collect_genai_tokens_per_s.py:141-143 | every step number of the sweep is the position of exactly one (seqlen, model) cell |
| Sweep.FilledShape | collect_genai_tokens_per_s.py:133-135 | at every point each row keeps its seqlen and has exactly the models as keys |
| Sweep.FilledCell | collect_genai_tokens_per_s.py:141-168 | after `k` cells, a cell holds its own value if it comes before step `k`, and `None` otherwise |
| Sweep.FilledValueOrigin | collect_genai_tokens_per_s.py:143-165 | every value in the matrix is what the extractor found for that seqlen and a model of that name |
| Sweep.RunModelsRows | collect_genai_tokens_per_s.py:143-165 | the inner loop fills the rest of its row and nothing else |
| Sweep.RunModelsTrace | collect_genai_tokens_per_s.py:143-170 | the inner loop appends the events of its cells, in model order |
| Sweep.RunRowsRows | collect_genai_tokens_per_s.py:141-165 | started after the cells of the earlier seqlens, the outer loop fills every remaining cell |
| Sweep.RunRowsTrace | collect_genai_tokens_per_s.py:141-170 | started after the cells of the earlier seqlens, the outer loop appends the events of every remaining cell, in order |
| Sweep.RunRowsFilled | collect_genai_tokens_per_s.py:141-170 | the outer loop fills every remaining cell, in order, appending their events |
| SweepFacts.SweepWrites | collect_genai_tokens_per_s.py:138-168 | the written snapshots are the matrices after 0, 1, …, all cells |
| SweepFacts.SweepSnapshots | collect_genai_tokens_per_s.py:138-168 | the sweep writes exactly one time more than the number of seqlens times the number of models, and write `n` holds the first `n` cells |
| SweepFacts.CellCommandReads | collect_genai_tokens_per_s.py:144-153 | a cell's command reads back as the binary, the cell's model directory and seqlen, and the core when pinning applies |
| SweepFacts.SameCommandSameCell | collect_genai_tokens_per_s.py:144-153 | with model directories joined as plain strings, two cells run the same command only when they have the same model name and the same seqlen |
| SweepFacts.CellCommandInjective | collect_genai_tokens_per_s.py:144-153 | for distinct models and seqlens, different cells run different commands |
| SweepFacts.RunIffPresent | collect_genai_tokens_per_s.py:144-153 | a cell's command is run exactly when its model directory exists |
| SweepFacts.CellValueOfRun | collect_genai_tokens_per_s.py:145-165 | with the throughput extractor a cell holds nothing exactly when its directory is missing or its run's output has no match; otherwise it holds the value of the run's last match, a numeral |
| SweepFacts.FinalCell | collect_genai_tokens_per_s.py:141-165 | after the sweep each row has its seqlen and the models as keys, and each cell holds its own value |
| SweepFacts.SnapshotReads | collect_genai_tokens_per_s.py:138-168 | every written file reads back as the matrix after that many cells |
| SweepFacts.ExitCodeIgnored | collect_genai_tokens_per_s.py:153-165 | changing the exit codes of the runs, output unchanged, changes neither the matrix nor any event |
| Driver.ExitCode | collect_genai_tokens_per_s.py:121-174 | `main` returns 2 when it stops before the sweep and 0 after it (when no run or write raises) |
| Driver.CpuCore | collect_genai_tokens_per_s.py:125 | an empty `--cpu-core` disables pinning, and any other text is used as is |
| Driver.SeqlensOf | collect_genai_tokens_per_s.py:127-131 | no `--seqlens` gives the default ladder, otherwise the resolver's result, and a success is a valid seqlen list |
| Driver.BinaryPath | collect_genai_tokens_per_s.py:118 | `--binary` when given, otherwise `<root>/bin/samples_bin/benchmark_genai` |
| Driver.CsvPath | collect_genai_tokens_per_s.py:119 | `--out` when given, otherwise `<root>/profile_log/genai_tokens_per_s.csv` |
| Driver.SweepEnv | collect_genai_tokens_per_s.py:117-153 | the sweep runs over the root, the binary path, `--models` or the default models, the resolved seqlens, the core setting, the machine, and the throughput extractor |
| Driver.Main | collect_genai_tokens_per_s.py:117-141 | with runs and writes that never raise, `main` fails exactly when the binary is missing or the seqlens are rejected. A missing binary is reported first. A sweep writes to `--out` or its default, over a valid seqlen list |
| Driver.SweptTable | collect_genai_tokens_per_s.py:133-168 | a sweep with the throughput extractor writes one time more than the number of seqlens times the number of models, and every stored value is a numeral |
| Driver.SweptSnapshotsRead | collect_genai_tokens_per_s.py:138-168 | with distinct models, every file a sweep with the throughput extractor writes reads back as the matrix of the cells done so far |
| Driver.ExtractNonEmpty | collect_genai_tokens_per_s.py:94 | the extractor never yields empty text, so an empty field always means no value |
| Driver.MainSweep | collect_genai_tokens_per_s.py:133-174 | a completed sweep exits 0, writes one time more than the number of seqlens times the number of models, and every stored value is a numeral |
| Driver.MainSnapshotsRead | collect_genai_tokens_per_s.py:138-168 | in a completed sweep over distinct models, every written file reads back as the matrix after that many cells |
| Scenarios.CommaAndSpaceForms | collect_genai_tokens_per_s.py:41-44 | `--seqlens 1,2,4` and `--seqlens 1 2 4` resolve alike |
| Scenarios.EmptyFragmentsDropped | collect_genai_tokens_per_s.py:43-44 | `1,,2` gives the tokens `1` and `2` and resolves like `1 2`; `,8` and `8,` give the single token `8` |
| Scenarios.ResolveNothing | collect_genai_tokens_per_s.py:58-59 | no arguments, `""` and `","` all fail with the empty-list error |
| Scenarios.ResolveOneRejected | collect_genai_tokens_per_s.py:49-54 | a single rejected token fails with its own error |
| Scenarios.ResolveNotANumber | collect_genai_tokens_per_s.py:51-52 | `abc` is rejected as invalid, and the error names it |
| Scenarios.IntSpellings | collect_genai_tokens_per_s.py:50 | `+8` and `08` read as 8, and `-007` as -7 |
| Scenarios.ResolveNegative | collect_genai_tokens_per_s.py:49-54 | `-007` is rejected as below the minimum, and the error names -7 |
| Scenarios.ResolveZero | collect_genai_tokens_per_s.py:53-54 | `0` is rejected as below the minimum, and the error names it |
| Scenarios.OneModelTable | collect_genai_tokens_per_s.py:141-168 | with one model installed and one missing, the final file holds the reported value for the first and an empty field for the second in every row, whatever the exit codes |
| Scenarios.OneModelRuns | collect_genai_tokens_per_s.py:145-153 | in that sweep, the installed model is run at every seqlen and the missing one never |

## Left out

- Running the benchmark (`subprocess.run`, lines 78-80) is an oracle
  parameter `bench` that gives each run's merged output text and exit code.
- `shutil.which("taskset")` (line 73) is one boolean that holds for the whole
  run.
- `Path.exists` (lines 121 and 145) is membership in a set of existing
  path strings, fixed for the whole run.
- Paths are joined by string concatenation with `/`. There is no
  normalisation, and the default root (the script's own directory) is a
  parameter.
- Three parts of `write_csv_matrix` are not modelled:
  - `mkdir`, the temporary file and the atomic `replace` (lines 88-90 and 95);
  - the file system as a whole: each call is one `Persist` event holding
    the matrix, and the file's contents are `CsvMatrix.CsvRows` of it;
  - `csv` quoting of fields that contain commas or quotes: a file is a
    sequence of rows of fields.
- `float()` (line 68), and the `str(float)` that ends up in a CSV cell, are
  not modelled. The cell holds the matched numeral text. Python would write
  its own spelling of the float, for example `100.0` for `1e2`.
- The console messages and their formatting (`print`, `f"{tok_s:.2f}"`)
  are logging only.
- `int()` on line 50 accepts only an optional sign and ASCII digits. Python
  also accepts surrounding whitespace, `_` digit separators and non-ASCII
  decimal digits.
- `\d` in the regular expression matches ASCII digits only here. Python's
  `str` patterns also match other Unicode decimal digits. `\s` is Python's
  whitespace set.
- `argparse` (lines 99-115) is reduced to the `Args` record. Checks on the
  number of arguments are not modelled. The `--models` default is copied as
  `Driver.DefaultModels`.
- The two test scripts, `test.py` and `test_base_openvino.py`, drive
  OpenVINO with random inputs and timers, and hold no logic of this
  program.
- Throughput.StdEnd: its contract only bounds the positions it returns. Its
  exact behaviour is stated through the whole match, by
  `Throughput.MatchAtLayout`, which keeps verification small.
- SummaryLines.LastSummaryWins: asks that no `T` follow the summary line.
  That is enough for the line to be the last match, but a later
  `Throughput` word that does not complete a match would also be harmless.
- SummaryLines.NoLabelNoValue: the absence of `T` is a sufficient
  condition for no match, not the exact one (`Throughput.Extract` states
  the exact one).
- Sweep.FilledCell: assumes distinct model names. With a repeated model,
  the program overwrites the same entry, and so does the model, but the
  closed form is stated for distinct names only.
- SweepFacts.FinalCell: assumes distinct model names, as
  `Sweep.FilledCell` does.
- SweepFacts.SnapshotReads: assumes distinct model names, and that the
  extractor never yields empty text (`Driver.ExtractNonEmpty` proves this
  for the real extractor).
- Driver.MainSnapshotsRead: assumes distinct model names. The program does
  not remove repeated `--models` entries.
- Driver.SweptSnapshotsRead: assumes distinct model names, as
  `Driver.MainSnapshotsRead` does. With a repeated model the header repeats
  the name and every field of that name shows the one shared entry, so a
  file does not read back into the cells done so far.
- Decimal.ParseInt: has no length limit. Python's `int()` on a text of
  more than 4300 digits raises `ValueError` (the interpreter's default
  `sys.int_info.default_max_str_digits`), so such a seqlen ends in the
  "Invalid seqlen" error and exit code 2. The model accepts it, and so
  `Seqlens.Resolve` succeeds on it. `str()` on line 76 has the same limit;
  `Decimal.ShowInt` does not model it either.
- Driver.Main: assumes that running the benchmark and writing the CSV
  never raise. In the program, `subprocess.run` (line 78) raises when the
  binary exists but cannot be executed, or when its output cannot be
  decoded as text, and `write_csv_matrix` (lines 88-95) raises when the
  file cannot be written. Either ends `main` with a traceback and exit
  status 1, leaving the file with the cells written so far. Because of
  this, `Driver.ExitCode` and `Driver.MainSweep` promise 0 for every
  sweep, which holds only when nothing raises.
- SweepFacts.CellCommandInjective: assumes distinct model names and
  distinct seqlens (the resolver guarantees the latter). Like
  `SweepFacts.SameCommandSameCell`, it is about model names up to the
  plain string join of `Sweep.ModelDir`.
- SweepFacts.SameCommandSameCell: holds for the model's unnormalised
  string join only. The program builds `root / "model" / model` with
  `pathlib` (line 144), which normalises the path before `str()` puts it
  on the command line (line 76). So the distinct names `a`, `a/` and `./a`
  give one `-m` argument and one command, and an absolute model name
  replaces the root altogether.

=== FILE: command.dfy ===
/** The argument vector `run_one` hands to the benchmark process. */
module Command {
  import opened Wrappers
  import opened Decimal

  /** `taskset -c <core>`, present only when a core is asked for and the
      `taskset` program is on the search path. */
  function PinPrefix(cpuCore: Option<string>, tasksetFound: bool): (prefix: seq<string>)
    ensures |prefix| == 0 || |prefix| == 3
    ensures |prefix| == 3 <==> cpuCore.Some? && tasksetFound
    ensures |prefix| == 3 ==> prefix[0] == "taskset" && prefix[1] == "-c" && prefix[2] == cpuCore.value
  {
    if cpuCore.Some? && tasksetFound then ["taskset", "-c", cpuCore.value] else []
  }

  /** `binary -m <model dir> --yjp <seqlen>`, which reads back into the
      binary, the directory and the seqlen it was built from. */
  function BenchArgs(binary: string, modelDir: string, seqlen: int): (args: seq<string>)
    ensures |args| == 5
    ensures ParseBenchArgs(args) == Some(Invocation(None, binary, modelDir, seqlen))
  {
    ParseShowInt(seqlen);
    [binary, "-m", modelDir, "--yjp", ShowInt(seqlen)]
  }

  /** The command `run_one` runs for one cell of the sweep. */
  function CommandLine(binary: string, modelDir: string, seqlen: int, cpuCore: Option<string>, tasksetFound: bool): (argv: seq<string>)
    ensures var pinned := cpuCore.Some? && tasksetFound;
      && |argv| == (if pinned then 8 else 5)
      && (pinned ==> argv[..3] == ["taskset", "-c", cpuCore.value])
      && argv[|argv| - 5..] == BenchArgs(binary, modelDir, seqlen)
  {
    PinPrefix(cpuCore, tasksetFound) + BenchArgs(binary, modelDir, seqlen)
  }

  /** What a command line asks for: the core it is pinned to, if any, the
      binary, the model directory and the sequence length. */
  datatype Invocation = Invocation(pin: Option<string>, binary: string, modelDir: string, seqlen: int)

  /** Reads a benchmark command back; `None` for any other argument vector. */
  function ParseCommandLine(argv: seq<string>): (r: Option<Invocation>)
    ensures r.Some? ==> |argv| == 5 || |argv| == 8
  {
    if |argv| == 8 && argv[0] == "taskset" && argv[1] == "-c" then
      match ParseBenchArgs(argv[3..])
      case None => None
      case Some(inv) => Some(inv.(pin := Some(argv[2])))
    else if |argv| == 5 then
      ParseBenchArgs(argv)
    else
      None
  }

  function ParseBenchArgs(args: seq<string>): (r: Option<Invocation>)
    ensures r.Some? ==> r.value.pin.None?
  {
    if |args| == 5 && args[1] == "-m" && args[3] == "--yjp" then
      match ParseInt(args[4])
      case None => None
      case Some(n) => Some(Invocation(None, args[0], args[2], n))
    else
      None
  }

  /** The command line determines the cell it was built for: the pin is the
      core exactly when `taskset` is used, and binary, directory and seqlen
      read back unchanged. */
  lemma ParseCommandLineInverse(binary: string, modelDir: string, seqlen: int, cpuCore: Option<string>, tasksetFound: bool)
    ensures ParseCommandLine(CommandLine(binary, modelDir, seqlen, cpuCore, tasksetFound))
         == Some(Invocation(if tasksetFound then cpuCore else None, binary, modelDir, seqlen))
  {
    var args := BenchArgs(binary, modelDir, seqlen);
    if cpuCore.Some? && tasksetFound {
      assert CommandLine(binary, modelDir, seqlen, cpuCore, tasksetFound)[3..] == args;
    }
  }

  /** Two cells get the same command only when they agree on the binary,
      the directory, the seqlen and the effective pin. */
  lemma CommandLineInjective(b1: string, d1: string, n1: int, b2: string, d2: string, n2: int, cpuCore: Option<string>, tasksetFound: bool)
    requires CommandLine(b1, d1, n1, cpuCore, tasksetFound) == CommandLine(b2, d2, n2, cpuCore, tasksetFound)
    ensures b1 == b2 && d1 == d2 && n1 == n2
  {
    ParseCommandLineInverse(b1, d1, n1, cpuCore, tasksetFound);
    ParseCommandLineInverse(b2, d2, n2, cpuCore, tasksetFound);
  }
}

=== FILE: csv_matrix.dfy ===
/** The rows `write_csv_matrix` hands to the CSV writer, and what a reader
    recovers from them. */
module CsvMatrix {
  import opened Wrappers
  import opened Decimal

  /** One row of the result matrix: a seqlen and, per model name, the value
      recorded so far (`None` when there is none). */
  datatype Row = Row(seqlen: int, values: map<string, Option<string>>)

  /** `values.get(m)`: a model absent from the map has no value. */
  function Get(values: map<string, Option<string>>, m: string): (v: Option<string>)
    ensures v.Some? <==> m in values && values[m].Some?
    ensures m in values ==> v == values[m]
    ensures m !in values ==> v == None
  {
    if m in values then values[m] else None
  }

  /** `"" if values.get(m) is None else values[m]`. */
  function Cell(values: map<string, Option<string>>, m: string): (c: string)
    ensures Get(values, m).Some? ==> c == Get(values, m).value
    ensures Get(values, m).None? ==> c == ""
    ensures m in values && values[m].Some? ==> c == values[m].value
    ensures m !in values || values[m].None? ==> c == ""
  {
    match Get(values, m)
    case None => ""
    case Some(v) => v
  }

  function Header(models: seq<string>): (h: seq<string>)
    ensures |h| == 1 + |models| && h[0] == "seqlen" && h[1..] == models
  {
    ["seqlen"] + models
  }

  /** `[seqlen, *cells]` for one row, the cells in the order of `models`. */
  function Fields(models: seq<string>, row: Row): (fields: seq<string>)
    ensures |fields| == 1 + |models|
    ensures fields[0] == ShowInt(row.seqlen)
    ensures forall k :: 0 <= k < |models| ==> fields[k + 1] == Cell(row.values, models[k])
  {
    [ShowInt(row.seqlen)] + seq(|models|, k requires 0 <= k < |models| => Cell(row.values, models[k]))
  }

  /** Everything one call of `write_csv_matrix` writes: the header, then one
      line per row in the order given. */
  function CsvRows(models: seq<string>, rows: seq<Row>): (table: seq<seq<string>>)
    ensures |table| == 1 + |rows| && table[0] == Header(models)
    ensures forall i :: 0 <= i < |rows| ==> table[i + 1] == Fields(models, rows[i])
  {
    [Header(models)] + seq(|rows|, i requires 0 <= i < |rows| => Fields(models, rows[i]))
  }

  // ---------------------------------------------------------------------------
  // Reading the table back
  // ---------------------------------------------------------------------------

  /** A line of the table as a reader sees it: the seqlen and one optional
      value per model column. */
  datatype Record = Record(seqlen: int, cells: seq<Option<string>>)

  function ReadField(f: string): (v: Option<string>)
    ensures v.None? <==> f == ""
  {
    if f == "" then None else Some(f)
  }

  function ReadFields(fields: seq<string>): (r: Option<Record>)
    ensures r.Some? ==> |r.value.cells| + 1 == |fields|
  {
    if |fields| == 0 then None
    else
      match ParseInt(fields[0])
      case None => None
      case Some(n) => Some(Record(n, seq(|fields| - 1, k requires 0 <= k < |fields| - 1 => ReadField(fields[k + 1]))))
  }

  predicate Readable(models: seq<string>, table: seq<seq<string>>) {
    && |table| > 0
    && table[0] == Header(models)
    && forall i :: 1 <= i < |table| ==> |table[i]| == 1 + |models| && ReadFields(table[i]).Some?
  }

  /** Reads a whole table; `None` unless it has the expected header and every
      line has a seqlen and one field per model. */
  function ReadCsv(models: seq<string>, table: seq<seq<string>>): (r: Option<seq<Record>>)
    ensures r.Some? <==> Readable(models, table)
    ensures r.Some? ==> |r.value| + 1 == |table|
  {
    if Readable(models, table) then
      Some(seq(|table| - 1, i requires 0 <= i < |table| - 1 => ReadFields(table[i + 1]).value))
    else
      None
  }

  /** What a row means to a reader of the table: its seqlen and the value of
      each model column. */
  function Lookup(models: seq<string>, row: Row): (rec: Record)
    ensures rec.seqlen == row.seqlen && |rec.cells| == |models|
    ensures forall k :: 0 <= k < |models| ==> rec.cells[k] == Get(row.values, models[k])
  {
    Record(row.seqlen, seq(|models|, k requires 0 <= k < |models| => Get(row.values, models[k])))
  }

  /** No recorded value is the empty text, which the table could not tell
      apart from a missing one. */
  predicate NoEmptyValues(rows: seq<Row>) {
    forall i, m :: 0 <= i < |rows| && m in rows[i].values && rows[i].values[m].Some? ==> rows[i].values[m].value != ""
  }

  lemma ReadFieldsOfRow(models: seq<string>, row: Row)
    requires forall m :: m in row.values && row.values[m].Some? ==> row.values[m].value != ""
    ensures ReadFields(Fields(models, row)) == Some(Lookup(models, row))
  {
    var fields := Fields(models, row);
    ParseShowInt(row.seqlen);
    var rec := ReadFields(fields).value;
    assert |rec.cells| == |models|;
    forall k | 0 <= k < |models| ensures rec.cells[k] == Lookup(models, row).cells[k] {
      assert rec.cells[k] == ReadField(fields[k + 1]);
    }
    assert rec.cells == Lookup(models, row).cells;
  }

  /** Reading the table written for `rows` gives back every row's seqlen and
      every model's value, in order: nothing is lost but the distinction
      between a missing value and an empty one. */
  lemma ReadCsvRows(models: seq<string>, rows: seq<Row>)
    requires NoEmptyValues(rows)
    ensures ReadCsv(models, CsvRows(models, rows)) == Some(seq(|rows|, i requires 0 <= i < |rows| => Lookup(models, rows[i])))
  {
    var table := CsvRows(models, rows);
    forall i | 0 <= i < |rows| ensures ReadFields(table[i + 1]) == Some(Lookup(models, rows[i])) {
      ReadFieldsOfRow(models, rows[i]);
    }
    assert Readable(models, table) by {
      forall i | 1 <= i < |table| ensures |table[i]| == 1 + |models| && ReadFields(table[i]).Some? {
        assert ReadFields(table[(i - 1) + 1]).Some?;
      }
    }
    var read := ReadCsv(models, table).value;
    var want := seq(|rows|, i requires 0 <= i < |rows| => Lookup(models, rows[i]));
    assert |read| == |want|;
    forall i | 0 <= i < |rows| ensures read[i] == want[i] {
      assert read[i] == ReadFields(table[i + 1]).value;
    }
    assert read == want;
  }
}

=== FILE: decimal.dfy ===
/** Decimal text of integers: Python's `str(n)` for an `int`, and `int(t)`
    restricted to an optional sign followed by ASCII digits. */
module Decimal {
  import opened Wrappers

  predicate IsDigit(c: char) {
    '0' <= c <= '9'
  }

  predicate AllDigits(s: string) {
    forall k :: 0 <= k < |s| ==> IsDigit(s[k])
  }

  function DigitValue(c: char): (d: nat)
    requires IsDigit(c)
    ensures d < 10
  {
    c as int - '0' as int
  }

  function DigitChar(d: nat): (c: char)
    requires d < 10
    ensures IsDigit(c) && DigitValue(c) == d
  {
    ('0' as int + d) as char
  }

  /** The number a string of decimal digits denotes, most significant first. */
  function ValueOfDigits(s: string): nat
    requires AllDigits(s)
  {
    if |s| == 0 then 0
    else 10 * ValueOfDigits(s[..|s| - 1]) + DigitValue(s[|s| - 1])
  }

  /** `str(n)` for a non-negative `n`: the shortest decimal spelling, which
      reads back as `n`. */
  function ShowNat(n: nat): (s: string)
    ensures |s| > 0 && AllDigits(s)
    ensures ValueOfDigits(s) == n
    ensures s[0] == '0' ==> n == 0
    decreases n
  {
    if n < 10 then [DigitChar(n)]
    else
      var prefix := ShowNat(n / 10);
      var s := prefix + [DigitChar(n % 10)];
      assert s[..|s| - 1] == prefix;
      s
  }

  /** `str(n)` for any Python `int`. */
  function ShowInt(n: int): (s: string)
    ensures |s| > 0
    ensures n >= 0 <==> IsDigit(s[0])
  {
    if n < 0 then "-" + ShowNat(-n) else ShowNat(n)
  }

  /** The texts `int(t)` accepts in this model: an optional `+` or `-`
      followed by at least one ASCII digit. */
  predicate IsIntegerText(t: string) {
    || (|t| > 0 && AllDigits(t))
    || (|t| > 1 && (t[0] == '+' || t[0] == '-') && AllDigits(t[1..]))
  }

  /** `int(t)`: `None` where Python raises `ValueError`. */
  function ParseInt(t: string): (r: Option<int>)
    ensures r.Some? <==> IsIntegerText(t)
  {
    if |t| > 1 && (t[0] == '+' || t[0] == '-') && AllDigits(t[1..]) then
      var magnitude: int := ValueOfDigits(t[1..]);
      Some(if t[0] == '-' then -magnitude else magnitude)
    else if |t| > 0 && AllDigits(t) then
      Some(ValueOfDigits(t))
    else
      None
  }

  /** `int(str(n)) == n`: the decimal text of every integer reads back as
      that integer. */
  lemma ParseShowInt(n: int)
    ensures ParseInt(ShowInt(n)) == Some(n)
  {
    if n < 0 {
      var s := ShowInt(n);
      assert s[1..] == ShowNat(-n);
    }
  }

  /** A sign in front of the digits: `int("+" + d) == int(d)` and
      `int("-" + d) == -int(d)`. */
  lemma ParseSigned(d: string)
    requires |d| > 0 && AllDigits(d)
    ensures ParseInt(d).Some?
    ensures ParseInt("+" + d) == ParseInt(d)
    ensures ParseInt("-" + d) == Some(-ParseInt(d).value)
  {
    assert ("+" + d)[1..] == d;
    assert ("-" + d)[1..] == d;
  }

  /** A leading zero leaves the value unchanged: `int("0" + d) == int(d)`. */
  lemma ParseLeadingZero(d: string)
    requires |d| > 0 && AllDigits(d)
    ensures ParseInt("0" + d) == ParseInt(d)
  {
    ValueOfLeadingZero(d);
  }

  lemma {:induction false} ValueOfLeadingZero(d: string)
    requires AllDigits(d)
    ensures AllDigits("0" + d) && ValueOfDigits("0" + d) == ValueOfDigits(d)
    decreases |d|
  {
    var z := "0" + d;
    assert AllDigits(z) by {
      assert forall k :: 0 < k < |z| ==> z[k] == d[k - 1];
    }
    if |d| > 0 {
      var p := d[..|d| - 1];
      ValueOfLeadingZero(p);
      assert z[..|z| - 1] == "0" + p;
      assert z[|z| - 1] == d[|d| - 1];
    }
  }

  /** A digit string with a non-zero first digit denotes at least 1. */
  lemma {:induction false} ValueOfLeadingNonZero(s: string)
    requires |s| > 0 && AllDigits(s) && s[0] != '0'
    ensures ValueOfDigits(s) >= 1
    decreases |s|
  {
    if |s| > 1 {
      var p := s[..|s| - 1];
      assert p[0] == s[0];
      ValueOfLeadingNonZero(p);
    }
  }

  /** Every digit string without a leading zero (or the single `0`) is the
      `str()` of its value. With `ParseShowInt`, `ParseSigned` and
      `ParseLeadingZero` this fixes the value `int()` gives on every text it
      accepts. */
  lemma {:induction false} ShowNatCanonical(s: string)
    requires |s| > 0 && AllDigits(s) && (s[0] == '0' ==> |s| == 1)
    ensures ShowNat(ValueOfDigits(s)) == s
    decreases |s|
  {
    var n := ValueOfDigits(s);
    var c := s[|s| - 1];
    if |s| == 1 {
      assert ValueOfDigits(s[..|s| - 1]) == 0;
      assert n == DigitValue(c);
      assert DigitChar(DigitValue(c)) == c;
    } else {
      var p := s[..|s| - 1];
      assert p[0] == s[0];
      ValueOfLeadingNonZero(p);
      ShowNatCanonical(p);
      assert n / 10 == ValueOfDigits(p) && n % 10 == DigitValue(c);
      assert DigitChar(DigitValue(c)) == c;
      assert s == p + [c];
    }
  }
}

=== FILE: driver.dfy ===
/** `main`: the command-line defaults, the two checks made before anything
    is written, and the sweep with the throughput extractor. */
module Driver {
  import opened Wrappers
  import opened Sequences
  import opened Seqlens
  import opened Throughput
  import opened CsvMatrix
  import opened Sweep
  import opened SweepFacts

  /** The parsed command line; `None` where an option was not given. */
  datatype Args = Args(
    root: string,
    binary: Option<string>,
    models: Option<seq<string>>,
    seqlens: Option<seq<string>>,
    cpuCore: string,
    out: Option<string>)

  /** The machine: the set of paths that exist, whether `taskset` is on
      the search path, and what each benchmark run prints. */
  datatype World = World(
    paths: set<string>,
    tasksetFound: bool,
    bench: (nat, nat, seq<string>) -> Output)

  datatype MainError = BinaryMissing(path: string) | BadSeqlens(error: SeqlenError)

  /** How `main` ends: with exit code 2 before anything is written, or after
      the whole sweep, writing to `csv`. */
  datatype Outcome =
    | Failed(error: MainError)
    | Swept(csv: string, env: Env, final: State)

  function ExitCode(o: Outcome): (code: int)
    ensures o.Failed? ==> code == 2
    ensures o.Swept? ==> code == 0
  {
    if o.Failed? then 2 else 0
  }

  function DefaultModels(): seq<string> {
    ["a8w8", "f8e4m3", "nvfp4", "WOi4", "WOi8", "WOmxfp4", "WOnf4"]
  }

  /** `--binary`, or `root / "bin" / "samples_bin" / "benchmark_genai"`. */
  function BinaryPath(args: Args): (path: string)
    ensures args.binary.Some? ==> path == args.binary.value
    ensures args.binary.None? ==> path == args.root + "/bin/samples_bin/benchmark_genai"
  {
    args.binary.GetOr(args.root + "/bin/samples_bin/benchmark_genai")
  }

  /** `--out`, or `root / "profile_log" / "genai_tokens_per_s.csv"`. */
  function CsvPath(args: Args): (path: string)
    ensures args.out.Some? ==> path == args.out.value
    ensures args.out.None? ==> path == args.root + "/profile_log/genai_tokens_per_s.csv"
  {
    args.out.GetOr(args.root + "/profile_log/genai_tokens_per_s.csv")
  }

  /** An empty `--cpu-core` turns pinning off. */
  function CpuCore(arg: string): (core: Option<string>)
    ensures core.None? <==> arg == ""
    ensures core.Some? ==> core.value == arg
  {
    if arg == "" then None else Some(arg)
  }

  function SeqlensOf(arg: Option<seq<string>>): (r: Result<seq<int>, SeqlenError>)
    ensures r.Success? ==> ValidSeqlens(r.value)
    ensures arg.None? ==> r == Success(DefaultSeqlens())
    ensures arg.Some? ==> r == Resolve(arg.value)
  {
    if arg.None? then Success(DefaultSeqlens()) else Resolve(arg.value)
  }

  /** The sweep's environment for a resolved seqlen list. */
  function SweepEnv(args: Args, world: World, seqlens: seq<int>): (env: Env)
    ensures env.root == args.root && env.binary == BinaryPath(args)
    ensures env.models == args.models.GetOr(DefaultModels()) && env.seqlens == seqlens
    ensures env.cpuCore == CpuCore(args.cpuCore) && env.tasksetFound == world.tasksetFound
    ensures env.paths == world.paths && env.bench == world.bench && env.extract == Extract
  {
    Env(args.root, BinaryPath(args), args.models.GetOr(DefaultModels()), seqlens,
        CpuCore(args.cpuCore), world.tasksetFound, world.paths, world.bench, Extract)
  }

  /** `main()`. A missing binary is reported first, then a bad seqlen list;
      either way the program stops with exit code 2 before writing or
      running anything. */
  function Main(args: Args, world: World): (o: Outcome)
    ensures o.Failed? <==> BinaryPath(args) !in world.paths || SeqlensOf(args.seqlens).Failure?
    ensures BinaryPath(args) !in world.paths ==> o == Failed(BinaryMissing(BinaryPath(args)))
    ensures BinaryPath(args) in world.paths && SeqlensOf(args.seqlens).Failure? ==>
      o == Failed(BadSeqlens(SeqlensOf(args.seqlens).error))
    ensures o.Swept? ==> o.csv == CsvPath(args) && ValidSeqlens(o.env.seqlens)
    ensures o.Swept? ==>
      && SeqlensOf(args.seqlens).Success?
      && o.env == SweepEnv(args, world, SeqlensOf(args.seqlens).value)
      && o.final == RunSweep(o.env)
  {
    var binary := BinaryPath(args);
    if binary !in world.paths then
      Failed(BinaryMissing(binary))
    else
      match SeqlensOf(args.seqlens)
      case Failure(e) => Failed(BadSeqlens(e))
      case Success(seqlens) =>
        var env := SweepEnv(args, world, seqlens);
        Swept(CsvPath(args), env, RunSweep(env))
  }

  /** The throughput extractor never yields the empty text. */
  lemma ExtractNonEmpty(t: string)
    ensures Extract(t) != Some("")
  {
    ExtractNumeral(t);
    if Extract(t).Some? {
      NumeralChars(Extract(t).value);
    }
  }

  /** A sweep with the throughput extractor writes the table once empty and
      once after every cell; its final table holds, in every cell, nothing
      or a numeral the benchmark printed for that cell. */
  lemma SweptTable(env: Env, i: int, m: string)
    requires env.extract == Extract && 0 <= i < |env.seqlens| && m in RunSweep(env).rows[i].values
    ensures |Snapshots(RunSweep(env).trace)| == 1 + |env.seqlens| * |env.models|
    ensures RunSweep(env).rows[i].values[m].Some? ==> IsNumeral(RunSweep(env).rows[i].values[m].value)
  {
    var rows := RunSweep(env).rows;
    SweepSnapshots(env);
    if rows[i].values[m].Some? {
      FilledValueOrigin(env, Cells(env), i, m);
      var j :| 0 <= j < |env.models| && env.models[j] == m && rows[i].values[m] == CellValue(env, i, j);
      ExtractNumeral(env.bench(i, j, CellCommand(env, i, j)).text);
    }
  }

  /** A successful run exits with 0, writes the table once empty and once
      after every cell, and its final table holds, in every cell, nothing or
      a numeral the benchmark printed for that cell. */
  lemma MainSweep(args: Args, world: World, i: int, m: string)
    requires Main(args, world).Swept?
    requires var o := Main(args, world); 0 <= i < |o.env.seqlens| && m in o.final.rows[i].values
    ensures var o := Main(args, world);
      && ExitCode(o) == 0
      && |Snapshots(o.final.trace)| == 1 + |o.env.seqlens| * |o.env.models|
      && (o.final.rows[i].values[m].Some? ==> IsNumeral(o.final.rows[i].values[m].value))
  {
    var o := Main(args, world);
    SweptTable(o.env, i, m);
  }

  /** With no model listed twice, every write of a sweep with the
      throughput extractor can be read back into exactly the cells done so
      far. */
  lemma SweptSnapshotsRead(env: Env, k: int)
    requires env.extract == Extract && Distinct(env.models) && 0 <= k < |Snapshots(RunSweep(env).trace)|
    ensures ReadCsv(env.models, CsvRows(env.models, Snapshots(RunSweep(env).trace)[k])) == Some(Expected(env, k))
  {
    SweepSnapshots(env);
    forall t ensures env.extract(t) != Some("") {
      ExtractNonEmpty(t);
    }
    SnapshotReads(env, k);
  }

  /** With no model listed twice, every write of a successful run can be
      read back into exactly the cells done so far. */
  lemma MainSnapshotsRead(args: Args, world: World, k: int)
    requires Main(args, world).Swept?
    requires var o := Main(args, world); Distinct(o.env.models) && 0 <= k < |Snapshots(o.final.trace)|
    ensures var o := Main(args, world);
      ReadCsv(o.env.models, CsvRows(o.env.models, Snapshots(o.final.trace)[k])) == Some(Expected(o.env, k))
  {
    var o := Main(args, world);
    SweptSnapshotsRead(o.env, k);
  }
}

=== FILE: scenarios.dfy ===
/** Worked examples: the seqlen resolver on typical command lines, and a
    whole sweep over two models, one of them not installed. */
module Scenarios {
  import opened Wrappers
  import opened Sequences
  import opened Decimal
  import opened Seqlens
  import opened Throughput
  import opened SummaryLines
  import opened CsvMatrix
  import opened Sweep
  import opened SweepFacts

  /** The fragments of a list of arguments are those of its first argument
      followed by those of the rest. */
  lemma FragmentsCons(v: string, rest: seq<string>)
    ensures Fragments([v] + rest) == NonEmpty(Split(v, ',')) + Fragments(rest)
  {
    assert ([v] + rest)[1..] == rest;
  }

  /** A non-empty argument without a comma is one fragment. */
  lemma OneFragment(t: string)
    requires t != "" && ',' !in t
    ensures Fragments([t]) == [t]
  {
    SplitWithoutSep(t, ',');
    FragmentsCons(t, []);
    NonEmptyKeepsAll([t]);
  }

  /** Arguments that are each one fragment are their own fragments. */
  lemma {:induction false} SeparateFragments(tokens: seq<string>)
    requires forall k :: 0 <= k < |tokens| ==> tokens[k] != "" && ',' !in tokens[k]
    ensures Fragments(tokens) == tokens
    decreases |tokens|
  {
    if |tokens| > 0 {
      SeparateFragments(tokens[1..]);
      SplitWithoutSep(tokens[0], ',');
      NonEmptyKeepsAll([tokens[0]]);
      assert [tokens[0]] + tokens[1..] == tokens;
    }
  }

  /** `--seqlens 1,2,4` and `--seqlens 1 2 4` resolve alike. */
  lemma CommaAndSpaceForms(tokens: seq<string>)
    requires forall k :: 0 <= k < |tokens| ==> tokens[k] != "" && ',' !in tokens[k]
    ensures Resolve([Join(tokens, ',')]) == Resolve(tokens)
  {
    FragmentsOfJoined(tokens);
    SeparateFragments(tokens);
  }

  lemma DoubleCommaPieces(a: string, b: string)
    requires ',' !in a && ',' !in b
    ensures Split(a + ",," + b, ',') == [a, "", b]
  {
    var tail := "" + [','] + b;
    assert Split(tail, ',') == ["", b] by {
      SplitWithoutSep(b, ',');
      SplitAfterPiece("", ',', b);
    }
    assert Split(a + [','] + tail, ',') == [a, "", b] by {
      SplitAfterPiece(a, ',', tail);
    }
    DoubleComma(a, b);
  }

  lemma DoubleComma(a: string, b: string)
    ensures a + ",," + b == a + [','] + ("" + [','] + b)
  {
  }

  lemma DropMiddle(a: string, b: string)
    requires a != "" && b != ""
    ensures NonEmpty([a, "", b]) == [a, b]
  {
    assert [a, "", b] == [a] + ([""] + [b]);
    NonEmptyAppend([a], [""] + [b]);
    NonEmptyAppend([""], [b]);
    NonEmptyOne(a);
    NonEmptyOne("");
    NonEmptyOne(b);
  }

  lemma LeadingComma(a: string)
    requires a != "" && ',' !in a
    ensures Fragments(["," + a]) == [a]
  {
    SplitWithoutSep(a, ',');
    assert "," + a == "" + [','] + a;
    SplitAfterPiece("", ',', a);
    NonEmptyAppend([""], [a]);
    NonEmptyOne("");
    NonEmptyOne(a);
    FragmentsOfOne("," + a);
  }

  lemma TrailingComma(a: string)
    requires a != "" && ',' !in a
    ensures Fragments([a + ","]) == [a]
  {
    assert a + "," == a + [','] + "";
    SplitAfterPiece(a, ',', "");
    assert Split("", ',') == [""];
    NonEmptyAppend([a], [""]);
    NonEmptyOne("");
    NonEmptyOne(a);
    FragmentsOfOne(a + ",");
  }

  /** Empty fragments between, before and after commas are dropped:
      `--seqlens 1,,2` resolves like `--seqlens 1 2`, and `--seqlens ,8`
      and `--seqlens 8,` like `--seqlens 8`. */
  lemma EmptyFragmentsDropped(a: string, b: string)
    requires a != "" && ',' !in a && b != "" && ',' !in b
    ensures Fragments([a + ",," + b]) == [a, b]
    ensures Fragments(["," + a]) == [a]
    ensures Fragments([a + ","]) == [a]
    ensures Resolve([a + ",," + b]) == Resolve([a, b])
  {
    DoubleCommaPieces(a, b);
    DropMiddle(a, b);
    FragmentsOfOne(a + ",," + b);
    LeadingComma(a);
    TrailingComma(a);
    SeparateFragments([a, b]);
  }

  /** No fragment at all is the `EmptyList` error, whatever the commas. */
  lemma ResolveNothing()
    ensures Resolve([]) == Failure(EmptyList)
    ensures Resolve([""]) == Failure(EmptyList)
    ensures Resolve([","]) == Failure(EmptyList)
  {
    SplitAfterPiece("", ',', "");
    assert "" + [','] + "" == ",";
  }

  /** A single argument holding one fragment that the loop rejects fails
      with that fragment's error. */
  lemma ResolveOneRejected(t: string)
    requires t != "" && ',' !in t && !Acceptable(t)
    ensures Resolve([t]) == Failure(RejectionOf(t))
  {
    OneFragment(t);
    assert FirstRejected([t], 0);
  }

  /** A fragment that is no integer is named in the error. */
  lemma ResolveNotANumber()
    ensures Resolve(["abc"]) == Failure(InvalidSeqlen("abc"))
  {
    assert ParseInt("abc").None? by { assert !IsDigit('a'); }
    ResolveOneRejected("abc");
  }

  /** An integer below one is named in the error. */
  lemma ResolveZero()
    ensures Resolve(["0"]) == Failure(BelowMinimum(0))
  {
    assert ParseInt("0") == Some(0) by { assert "0"[..0] == []; }
    ResolveOneRejected("0");
  }

  /** `int()` ignores a `+` and leading zeros: `--seqlens +8` and
      `--seqlens 08` both mean 8, and `-007` means -7. */
  lemma IntSpellings()
    ensures ParseInt("+8") == Some(8) && ParseInt("08") == Some(8)
    ensures ParseInt("-007") == Some(-7)
  {
    ParseSigned("8");
    assert "+" + "8" == "+8";
    ParseLeadingZero("8");
    assert "0" + "8" == "08";
    ParseLeadingZero("7");
    assert "0" + "7" == "07";
    ParseLeadingZero("07");
    assert "0" + "07" == "007";
    ParseSigned("007");
    assert "-" + "007" == "-007";
  }

  /** `--seqlens -007` is rejected, and the error names the value -7. */
  lemma ResolveNegative()
    ensures Resolve(["-007"]) == Failure(BelowMinimum(-7))
  {
    IntSpellings();
    ResolveOneRejected("-007");
  }

  /** The end-to-end example: two distinct models, the first with a model
      directory and the second without, and every run of the first prints
      the summary line of `v`, with whatever exit code. */
  ghost predicate OneModelPresent(env: Env, v: string) {
    && |env.models| == 2 && env.models[0] != env.models[1]
    && Present(env, 0) && !Present(env, 1)
    && env.extract == Extract && IsNumeral(v)
    && forall i, argv :: env.bench(i, 0, argv).text == SummaryLine(v, None) + "\n"
  }

  /** A log holding only the summary line of `v` yields `v`. */
  lemma SummaryAlone(v: string)
    requires IsNumeral(v)
    ensures Extract(SummaryLine(v, None) + "\n") == Some(v)
  {
    assert "" + SummaryLine(v, None) + "\n" == SummaryLine(v, None) + "\n";
    LastSummaryWins("", v, None, "\n");
  }

  /** A run of the first model at any seqlen yields `v`. */
  lemma OneModelValue(env: Env, v: string, i: int)
    requires OneModelPresent(env, v) && 0 <= i < |env.seqlens|
    ensures CellValue(env, i, 0) == Some(v)
  {
    SummaryAlone(v);
    assert env.bench(i, 0, CellCommand(env, i, 0)).text == SummaryLine(v, None) + "\n";
  }

  lemma TwoDistinct(xs: seq<string>)
    requires |xs| == 2 && xs[0] != xs[1]
    ensures Distinct(xs)
  {
  }

  /** The fields written for row `i` at the end of the sweep. */
  lemma OneModelFields(env: Env, v: string, i: int)
    requires OneModelPresent(env, v) && 0 <= i < |env.seqlens|
    ensures Fields(env.models, RunSweep(env).rows[i]) == [ShowInt(env.seqlens[i]), v, ""]
  {
    var row := RunSweep(env).rows[i];
    assert row.seqlen == env.seqlens[i] && Cell(row.values, env.models[0]) == v by {
      OneModelValue(env, v, i);
      TwoDistinct(env.models);
      FinalCell(env, i, 0);
    }
    assert Cell(row.values, env.models[1]) == "" by {
      TwoDistinct(env.models);
      FinalCell(env, i, 1);
    }
    TwoFields(env.models, row, v, "");
  }

  lemma TwoFields(models: seq<string>, row: Row, a: string, b: string)
    requires |models| == 2 && Cell(row.values, models[0]) == a && Cell(row.values, models[1]) == b
    ensures Fields(models, row) == [ShowInt(row.seqlen), a, b]
  {
  }

  /** The final file of the sweep: every row holds `v` for the first model,
      whatever the exit codes, and nothing for the second. */
  lemma OneModelTable(env: Env, v: string)
    requires OneModelPresent(env, v)
    ensures var table := CsvRows(env.models, RunSweep(env).rows);
      && |table| == 1 + |env.seqlens|
      && table[0] == ["seqlen", env.models[0], env.models[1]]
      && forall i :: 0 <= i < |env.seqlens| ==> table[i + 1] == [ShowInt(env.seqlens[i]), v, ""]
  {
    var rows := RunSweep(env).rows;
    forall i | 0 <= i < |env.seqlens|
      ensures Fields(env.models, rows[i]) == [ShowInt(env.seqlens[i]), v, ""]
    {
      OneModelFields(env, v, i);
    }
    TwoModelTable(env.models, rows, env.seqlens, v);
  }

  lemma TwoModelTable(models: seq<string>, rows: seq<Row>, seqlens: seq<int>, v: string)
    requires |models| == 2 && |rows| == |seqlens|
    requires forall i :: 0 <= i < |seqlens| ==> Fields(models, rows[i]) == [ShowInt(seqlens[i]), v, ""]
    ensures var table := CsvRows(models, rows);
      && |table| == 1 + |seqlens|
      && table[0] == ["seqlen", models[0], models[1]]
      && forall i :: 0 <= i < |seqlens| ==> table[i + 1] == [ShowInt(seqlens[i]), v, ""]
  {
    assert Header(models) == ["seqlen", models[0], models[1]];
  }

  /** No benchmark run is made for the missing model, and one is made for
      the present model at each seqlen. */
  lemma OneModelRuns(env: Env, v: string, i: int)
    requires OneModelPresent(env, v) && 0 <= i < |env.seqlens|
    ensures CellCommand(env, i, 0) in Runs(RunSweep(env).trace)
    ensures CellCommand(env, i, 1) !in Runs(RunSweep(env).trace)
  {
    RunIffPresent(env, i, 0);
    RunIffPresent(env, i, 1);
  }

  /** The value 100 tokens/s. */
  const Hundred := "100.0"

  /** Seqlens 1 and 2, models `m1` and `m2`, only `m1` installed under
      `/r/model`, and every run of `m1` reporting 100 tokens/s and exiting
      with `exitCode`. */
  function TwoByTwo(exitCode: int): (env: Env)
    ensures env.models == ["m1", "m2"] && env.seqlens == [1, 2]
  {
    Env("/r", "/r/bin/samples_bin/benchmark_genai", ["m1", "m2"], [1, 2], Some("0"), true,
        {"/r/model/m1"},
        (i, j, argv) => Output(SummaryLine(Hundred, None) + "\n", exitCode),
        Extract)
  }

  /** The example machine is an instance of the end-to-end example. */
  lemma TwoByTwoIsExample(exitCode: int)
    ensures OneModelPresent(TwoByTwo(exitCode), Hundred)
  {
    var d1, d2 := ModelDir("/r", "m1"), ModelDir("/r", "m2");
    assert d1 == "/r/model/m1";
    assert d2[|d2| - 1] == '2';
    assert "m1"[1] != "m2"[1];
    DecimalNumeral("100", "0");
    assert "100" + "." + "0" == Hundred;
  }
}

=== FILE: seqlens.dfy ===
/** The seqlen resolver of collect_genai_tokens_per_s.py: `parse_seqlens_arg`
    and the default ladder `DEFAULT_SEQLENS`. */
module Seqlens {
  import opened Wrappers
  import opened Decimal
  import opened Sequences

  /** Why a seqlen specification is rejected (the `ValueError` messages). */
  datatype SeqlenError =
    | InvalidSeqlen(fragment: string)   // "Invalid seqlen: <fragment>"
    | BelowMinimum(value: int)          // "seqlen must be >= 1, got <value>"
    | EmptyList                         // "seqlens list is empty"

  // ---------------------------------------------------------------------------
  // Splitting on commas
  // ---------------------------------------------------------------------------

  /** `s.split(sep)`: the pieces between separators, empty ones included;
      there is always one piece more than there are separators. */
  function Split(s: string, sep: char): (pieces: seq<string>)
    ensures |pieces| == 1 + multiset(s)[sep]
    ensures forall k :: 0 <= k < |pieces| ==> sep !in pieces[k]
    decreases |s|
  {
    if |s| == 0 then [""]
    else
      var rest := Split(s[1..], sep);
      assert s == [s[0]] + s[1..];
      if s[0] == sep then [""] + rest
      else [[s[0]] + rest[0]] + rest[1..]
  }

  lemma AppendAssoc<T>(a: seq<T>, b: seq<T>, c: seq<T>)
    ensures a + b + c == a + (b + c)
  {
  }

  /** `sep.join(pieces)`, the inverse of `Split`. */
  function Join(pieces: seq<string>, sep: char): string
    decreases |pieces|
  {
    if |pieces| == 0 then ""
    else if |pieces| == 1 then pieces[0]
    else pieces[0] + [sep] + Join(pieces[1..], sep)
  }

  /** Joining the pieces of a split gives back the original text. */
  lemma {:induction false} JoinSplit(s: string, sep: char)
    ensures Join(Split(s, sep), sep) == s
    decreases |s|
  {
    if |s| > 0 {
      JoinSplit(s[1..], sep);
      var rest := Split(s[1..], sep);
      assert s == [s[0]] + s[1..];
      if s[0] == sep {
        JoinCons("", rest, sep);
      } else {
        JoinExtendHead(s[0], rest, sep);
      }
    }
  }

  lemma JoinCons(p: string, rest: seq<string>, sep: char)
    requires |rest| > 0
    ensures Join([p] + rest, sep) == p + [sep] + Join(rest, sep)
  {
    assert ([p] + rest)[1..] == rest;
  }

  /** Prefixing a character to the first piece prefixes it to the join. */
  lemma JoinExtendHead(c: char, rest: seq<string>, sep: char)
    requires |rest| > 0
    ensures Join([[c] + rest[0]] + rest[1..], sep) == [c] + Join(rest, sep)
  {
    if |rest| > 1 {
      JoinCons([c] + rest[0], rest[1..], sep);
      JoinCons(rest[0], rest[1..], sep);
      assert [rest[0]] + rest[1..] == rest;
    }
  }

  lemma {:induction false} SplitWithoutSep(a: string, sep: char)
    requires sep !in a
    ensures Split(a, sep) == [a]
    decreases |a|
  {
    if |a| > 0 {
      SplitWithoutSep(a[1..], sep);
      assert a == [a[0]] + a[1..];
    }
  }

  lemma {:induction false} SplitAfterPiece(a: string, sep: char, rest: string)
    requires sep !in a
    ensures Split(a + [sep] + rest, sep) == [a] + Split(rest, sep)
    decreases |a|
  {
    var s := a + [sep] + rest;
    if |a| == 0 {
      assert s[1..] == rest;
    } else {
      assert s[1..] == a[1..] + [sep] + rest;
      SplitAfterPiece(a[1..], sep, rest);
      assert [a[0]] + a[1..] == a;
    }
  }

  /** Splitting the join of separator-free pieces gives back the pieces. */
  lemma {:induction false} SplitJoin(pieces: seq<string>, sep: char)
    requires |pieces| > 0
    requires forall k :: 0 <= k < |pieces| ==> sep !in pieces[k]
    ensures Split(Join(pieces, sep), sep) == pieces
    decreases |pieces|
  {
    if |pieces| == 1 {
      SplitWithoutSep(pieces[0], sep);
    } else {
      SplitJoin(pieces[1..], sep);
      SplitAfterPiece(pieces[0], sep, Join(pieces[1..], sep));
      assert [pieces[0]] + pieces[1..] == pieces;
    }
  }

  /** The pieces that are not empty, in order: every non-empty piece is kept
      as often as it occurs, and nothing else. */
  function NonEmpty(pieces: seq<string>): (kept: seq<string>)
    ensures forall k :: 0 <= k < |kept| ==> kept[k] in pieces && kept[k] != ""
    ensures forall x :: x != "" ==> multiset(kept)[x] == multiset(pieces)[x]
    ensures |kept| <= |pieces|
  {
    if |pieces| == 0 then []
    else
      assert pieces == [pieces[0]] + pieces[1..];
      if pieces[0] == "" then NonEmpty(pieces[1..])
      else [pieces[0]] + NonEmpty(pieces[1..])
  }

  lemma {:induction false} NonEmptyKeepsAll(pieces: seq<string>)
    requires forall k :: 0 <= k < |pieces| ==> pieces[k] != ""
    ensures NonEmpty(pieces) == pieces
  {
    if |pieces| > 0 {
      NonEmptyKeepsAll(pieces[1..]);
    }
  }

  /** One piece: dropped when empty, kept otherwise. */
  lemma NonEmptyOne(x: string)
    ensures NonEmpty([x]) == if x == "" then [] else [x]
  {
    assert [x][1..] == [];
  }

  /** The filter works piece by piece and keeps the order: filtering a
      concatenation concatenates the filtered parts. With `NonEmptyOne` this
      fixes the filter on every input. */
  lemma {:induction false} NonEmptyAppend(a: seq<string>, b: seq<string>)
    ensures NonEmpty(a + b) == NonEmpty(a) + NonEmpty(b)
    decreases |a|
  {
    if |a| == 0 {
      assert a + b == b;
    } else {
      assert (a + b)[0] == a[0] && (a + b)[1..] == a[1..] + b;
      NonEmptyAppend(a[1..], b);
      if a[0] != "" {
        AppendAssoc([a[0]], NonEmpty(a[1..]), NonEmpty(b));
      }
    }
  }

  /** The `tokens` list of `parse_seqlens_arg`: every argument split on
      commas, empty fragments dropped, in argument order. */
  function Fragments(values: seq<string>): (tokens: seq<string>)
    ensures forall k :: 0 <= k < |tokens| ==> tokens[k] != "" && ',' !in tokens[k]
  {
    if |values| == 0 then []
    else NonEmpty(Split(values[0], ',')) + Fragments(values[1..])
  }

  /** The arguments are treated one after the other: the fragments of a
      concatenation of argument lists are the fragments of each. */
  lemma {:induction false} FragmentsAppend(a: seq<string>, b: seq<string>)
    ensures Fragments(a + b) == Fragments(a) + Fragments(b)
    decreases |a|
  {
    if |a| == 0 {
      assert a + b == b;
    } else {
      assert (a + b)[0] == a[0] && (a + b)[1..] == a[1..] + b;
      FragmentsAppend(a[1..], b);
      AppendAssoc(NonEmpty(Split(a[0], ',')), Fragments(a[1..]), Fragments(b));
    }
  }

  /** Comma-joining non-empty, comma-free fragments into one argument and
      resolving it yields exactly those fragments. */
  lemma FragmentsOfJoined(tokens: seq<string>)
    requires forall k :: 0 <= k < |tokens| ==> tokens[k] != "" && ',' !in tokens[k]
    ensures Fragments([Join(tokens, ',')]) == tokens
  {
    FragmentsOfOne(Join(tokens, ','));
    if |tokens| == 0 {
      assert Split("", ',') == [""];
    } else {
      SplitJoin(tokens, ',');
      NonEmptyKeepsAll(tokens);
    }
  }

  lemma FragmentsOfOne(value: string)
    ensures Fragments([value]) == NonEmpty(Split(value, ','))
  {
    assert [value][1..] == [];
  }

  // ---------------------------------------------------------------------------
  // Validation and first-occurrence deduplication
  // ---------------------------------------------------------------------------

  /** The invariant of a resolved seqlen list. */
  predicate ValidSeqlens(s: seq<int>) {
    && |s| > 0
    && Distinct(s)
    && (forall k :: 0 <= k < |s| ==> s[k] >= 1)
  }

  /** A fragment the loop of `parse_seqlens_arg` passes over without raising. */
  predicate Acceptable(t: string) {
    ParseInt(t).Some? && ParseInt(t).value >= 1
  }

  /** Fragment `k` is the first one the loop raises on. */
  predicate FirstRejected(tokens: seq<string>, k: int) {
    && 0 <= k < |tokens|
    && !Acceptable(tokens[k])
    && (forall l :: 0 <= l < k ==> Acceptable(tokens[l]))
  }

  /** The error raised on a rejected fragment. */
  function RejectionOf(t: string): SeqlenError {
    match ParseInt(t)
    case None => InvalidSeqlen(t)
    case Some(n) => BelowMinimum(n)
  }

  /** The integers of fragments that all parse. */
  function Parsed(tokens: seq<string>): (xs: seq<int>)
    requires forall k :: 0 <= k < |tokens| ==> Acceptable(tokens[k])
    ensures |xs| == |tokens|
    ensures forall k :: 0 <= k < |tokens| ==> Some(xs[k]) == ParseInt(tokens[k]) && xs[k] >= 1
  {
    if |tokens| == 0 then []
    else
      assert Acceptable(tokens[0]);
      [ParseInt(tokens[0]).value] + Parsed(tokens[1..])
  }

  /** Index of the first occurrence of `x` in `xs`. */
  function FirstIndex(xs: seq<int>, x: int): (i: nat)
    requires x in xs
    ensures i < |xs| && xs[i] == x
    ensures forall l :: 0 <= l < i ==> xs[l] != x
  {
    if xs[0] == x then 0 else 1 + FirstIndex(xs[1..], x)
  }

  /** `r` holds each value of `xs` exactly once, in the order of first
      occurrence in `xs`: what the `seen` set and the `seqlens` list of
      `parse_seqlens_arg` build. */
  ghost predicate IsFirstOccurrenceOrder(xs: seq<int>, r: seq<int>) {
    && Distinct(r)
    && (forall x :: x in r <==> x in xs)
    && (forall a, b :: 0 <= a < b < |r| ==> FirstIndex(xs, r[a]) < FirstIndex(xs, r[b]))
  }

  lemma FirstIndexExtend(xs: seq<int>, n: int, x: int)
    requires x in xs
    ensures FirstIndex(xs + [n], x) == FirstIndex(xs, x)
  {
    if xs[0] != x {
      assert (xs + [n])[1..] == xs[1..] + [n];
      FirstIndexExtend(xs[1..], n, x);
    }
  }

  lemma FirstOccurrenceStep(xs: seq<int>, r: seq<int>, n: int)
    requires IsFirstOccurrenceOrder(xs, r)
    ensures IsFirstOccurrenceOrder(xs + [n], if n in r then r else r + [n])
  {
    forall x | x in xs
      ensures FirstIndex(xs + [n], x) == FirstIndex(xs, x)
    {
      FirstIndexExtend(xs, n, x);
    }
    if n !in r {
      FirstOccurrenceNew(xs, r, n);
    }
  }

  /** A value not seen before is appended, and comes after all the others. */
  lemma FirstOccurrenceNew(xs: seq<int>, r: seq<int>, n: int)
    requires IsFirstOccurrenceOrder(xs, r) && n !in r
    requires forall x | x in xs :: FirstIndex(xs + [n], x) == FirstIndex(xs, x)
    ensures IsFirstOccurrenceOrder(xs + [n], r + [n])
  {
    var xs' := xs + [n];
    var r' := r + [n];
    assert n !in xs;
    assert FirstIndex(xs', n) == |xs|;
    forall a, b | 0 <= a < b < |r'|
      ensures FirstIndex(xs', r'[a]) < FirstIndex(xs', r'[b])
    {
      assert r'[a] in xs;
      if b < |r| {
        assert r'[b] in xs;
      }
    }
  }

  /** The loop of `parse_seqlens_arg` over the remaining fragments, with the
      values kept so far; the `seen` set is the set of elements of `kept`. */
  function ResolveFrom(tokens: seq<string>, kept: seq<int>): (r: Result<seq<int>, SeqlenError>)
    ensures r.Success? <==> forall k :: 0 <= k < |tokens| ==> Acceptable(tokens[k])
    ensures r.Success? ==> kept <= r.value
    ensures r.Failure? ==> r.error != EmptyList
  {
    if |tokens| == 0 then Success(kept)
    else
      match ParseInt(tokens[0])
      case None => Failure(InvalidSeqlen(tokens[0]))
      case Some(n) =>
        if n < 1 then Failure(BelowMinimum(n))
        else ResolveFrom(tokens[1..], if n in kept then kept else kept + [n])
  }

  lemma {:induction false} ResolveFromAccepts(tokens: seq<string>, kept: seq<int>, xs: seq<int>)
    requires forall k :: 0 <= k < |tokens| ==> Acceptable(tokens[k])
    requires IsFirstOccurrenceOrder(xs, kept)
    ensures var r := ResolveFrom(tokens, kept);
      r.Success? && IsFirstOccurrenceOrder(xs + Parsed(tokens), r.value)
    decreases |tokens|
  {
    if |tokens| == 0 {
      assert xs + Parsed(tokens) == xs;
    } else {
      assert Acceptable(tokens[0]);
      var n := ParseInt(tokens[0]).value;
      var kept' := if n in kept then kept else kept + [n];
      assert ResolveFrom(tokens, kept) == ResolveFrom(tokens[1..], kept');
      FirstOccurrenceStep(xs, kept, n);
      ResolveFromAccepts(tokens[1..], kept', xs + [n]);
      assert Parsed(tokens) == [n] + Parsed(tokens[1..]);
      AppendAssoc(xs, [n], Parsed(tokens[1..]));
    }
  }

  lemma {:induction false} ResolveFromRejects(tokens: seq<string>, kept: seq<int>, k: int)
    requires FirstRejected(tokens, k)
    ensures ResolveFrom(tokens, kept) == Failure(RejectionOf(tokens[k]))
    decreases |tokens|
  {
    if k > 0 {
      var n := ParseInt(tokens[0]).value;
      assert Acceptable(tokens[0]);
      assert FirstRejected(tokens[1..], k - 1) by {
        forall l | 0 <= l < k - 1 ensures Acceptable(tokens[1..][l]) {
          assert Acceptable(tokens[l + 1]);
        }
      }
      ResolveFromRejects(tokens[1..], if n in kept then kept else kept + [n], k - 1);
    }
  }

  /** When every fragment is acceptable, the loop keeps their values once
      each in first-occurrence order, and keeps something iff there was a
      fragment. */
  lemma ResolveAccepted(tokens: seq<string>)
    requires forall k :: 0 <= k < |tokens| ==> Acceptable(tokens[k])
    ensures var r := ResolveFrom(tokens, []);
      && r.Success?
      && IsFirstOccurrenceOrder(Parsed(tokens), r.value)
      && (|r.value| == 0 <==> |tokens| == 0)
      && (forall k :: 0 <= k < |r.value| ==> r.value[k] >= 1)
  {
    var xs := Parsed(tokens);
    ResolveFromAccepts(tokens, [], []);
    assert [] + xs == xs;
    var r := ResolveFrom(tokens, []).value;
    FirstOccurrenceFacts(xs, r);
    ValuesFromSource(xs, r);
  }

  lemma ValuesFromSource(xs: seq<int>, r: seq<int>)
    requires forall k :: 0 <= k < |xs| ==> xs[k] >= 1
    requires forall k :: 0 <= k < |r| ==> r[k] in xs
    ensures forall k :: 0 <= k < |r| ==> r[k] >= 1
  {
    forall k | 0 <= k < |r| ensures r[k] >= 1 {
      var i := FirstIndex(xs, r[k]);
    }
  }

  /** A first-occurrence ordering is empty iff its source is, and holds
      only values of its source. */
  lemma FirstOccurrenceFacts(xs: seq<int>, r: seq<int>)
    requires IsFirstOccurrenceOrder(xs, r)
    ensures |r| == 0 <==> |xs| == 0
    ensures forall k :: 0 <= k < |r| ==> r[k] in xs
  {
    assert forall x :: x in r <==> x in xs;
    if |xs| > 0 {
      assert xs[0] in xs;
      assert xs[0] in r;
    }
    if |r| > 0 {
      assert r[0] in r;
    }
    forall k | 0 <= k < |r| ensures r[k] in xs {
      assert r[k] in r;
    }
  }

  /** When some fragment is not acceptable, the loop raises on the first
      such fragment. */
  lemma ResolveFromFails(tokens: seq<string>, kept: seq<int>)
    requires !forall l :: 0 <= l < |tokens| ==> Acceptable(tokens[l])
    ensures ResolveFrom(tokens, kept).Failure?
    ensures ResolveFrom(tokens, kept).error != EmptyList
    ensures forall k :: FirstRejected(tokens, k) ==> ResolveFrom(tokens, kept) == Failure(RejectionOf(tokens[k]))
  {
    var k := 0;
    while Acceptable(tokens[k])
      invariant 0 <= k < |tokens|
      invariant forall l :: 0 <= l < k ==> Acceptable(tokens[l])
      decreases |tokens| - k
    {
      k := k + 1;
      if k == |tokens| {
        assert false;
      }
    }
    ResolveFromRejects(tokens, kept, k);
    forall k' | FirstRejected(tokens, k')
      ensures ResolveFrom(tokens, kept) == Failure(RejectionOf(tokens[k']))
    {
      ResolveFromRejects(tokens, kept, k');
    }
  }

  /** `parse_seqlens_arg(values)`. It succeeds exactly when there is at least
      one fragment and every fragment is an integer >= 1; the result is then
      a valid seqlen list holding the fragments' values once each, in order of
      first occurrence. Otherwise it fails, with no partial result, on the
      first offending fragment, or with `EmptyList` when there are no
      fragments at all. */
  function Resolve(values: seq<string>): (r: Result<seq<int>, SeqlenError>)
    ensures var tokens := Fragments(values);
      r.Success? <==> |tokens| > 0 && forall k :: 0 <= k < |tokens| ==> Acceptable(tokens[k])
    ensures r.Success? ==> ValidSeqlens(r.value)
    ensures r.Success? ==> IsFirstOccurrenceOrder(Parsed(Fragments(values)), r.value)
    ensures forall k :: FirstRejected(Fragments(values), k) ==> r == Failure(RejectionOf(Fragments(values)[k]))
    ensures r == Failure(EmptyList) <==> |Fragments(values)| == 0
  {
    var tokens := Fragments(values);
    if forall k :: 0 <= k < |tokens| ==> Acceptable(tokens[k]) then
      ResolveAccepted(tokens);
      var resolved := ResolveFrom(tokens, []);
      if |resolved.value| == 0 then
        Failure(EmptyList)
      else
        resolved
    else
      ResolveFromFails(tokens, []);
      ResolveFrom(tokens, [])
  }

  // ---------------------------------------------------------------------------
  // The default ladder
  // ---------------------------------------------------------------------------

  function Pow2(e: nat): (p: nat)
    ensures p >= 1
  {
    if e == 0 then 1 else 2 * Pow2(e - 1)
  }

  /** `DEFAULT_SEQLENS`: the powers of two 2^0 .. 2^14 in increasing order,
      satisfying the same invariant as a resolved list. */
  function DefaultSeqlens(): (r: seq<int>)
    ensures |r| == 15
    ensures forall i :: 0 <= i < |r| ==> r[i] == Pow2(i)
    ensures forall i, j :: 0 <= i < j < |r| ==> r[i] < r[j]
    ensures ValidSeqlens(r)
  {
    var r := [1, 2, 4, 8, 16, 32, 64, 128, 256, 512, 1024, 2048, 4096, 8192, 16384];
    DoublingLadder(r);
    r
  }

  /** A list that starts at 1 and doubles at every step is the list of
      powers of two, hence strictly increasing. */
  lemma DoublingLadder(r: seq<int>)
    requires |r| > 0 && r[0] == 1
    requires forall i :: 0 < i < |r| ==> r[i] == 2 * r[i - 1]
    ensures forall i :: 0 <= i < |r| ==> r[i] == Pow2(i)
    ensures forall i, j :: 0 <= i < j < |r| ==> r[i] < r[j]
  {
    forall i | 0 <= i < |r| ensures r[i] == Pow2(i) {
      DoublingIsPow2(r, i);
    }
    forall i, j | 0 <= i < j < |r| ensures r[i] < r[j] {
      Pow2Increasing(i, j);
    }
  }

  lemma {:induction false} Pow2Increasing(i: nat, j: nat)
    requires i < j
    ensures Pow2(i) < Pow2(j)
    decreases j
  {
    if i < j - 1 {
      Pow2Increasing(i, j - 1);
    }
  }

  lemma {:induction false} DoublingIsPow2(r: seq<int>, i: nat)
    requires |r| > 0 && r[0] == 1
    requires forall i :: 0 < i < |r| ==> r[i] == 2 * r[i - 1]
    requires i < |r|
    ensures r[i] == Pow2(i)
  {
    if i > 0 {
      DoublingIsPow2(r, i - 1);
    }
  }
}

=== FILE: sequences.dfy ===
/** Facts about sequences shared by the seqlen list and the model list. */
module Sequences {
  /** No element is listed twice. */
  predicate Distinct<T(==)>(xs: seq<T>) {
    forall a, b :: 0 <= a < b < |xs| ==> xs[a] != xs[b]
  }
}

=== FILE: summary_lines.dfy ===
/** The summary line the benchmark prints, and what the extractor makes of
    a log that contains it. */
module SummaryLines {
  import opened Wrappers
  import opened Decimal
  import opened Throughput

  /** The optional ` ± <std>` part of a summary line. */
  function StdPart(std: Option<string>): string {
    match std
    case None => ""
    case Some(s) => " " + [PlusMinus] + " " + s
  }

  /** What follows the value: the optional deviation, a space, the unit. */
  function LineTail(std: Option<string>): string {
    StdPart(std) + " " + Unit
  }

  /** `Throughput: <v>[ ± <std>] tokens/s`, with single spaces. */
  function SummaryLine(v: string, std: Option<string>): string {
    Label + " " + v + LineTail(std)
  }

  ghost predicate NumeralStd(std: Option<string>) {
    std.Some? ==> IsNumeral(std.value)
  }

  // ---------------------------------------------------------------------------
  // Occurrences of concatenations
  // ---------------------------------------------------------------------------

  lemma HasAtSplit(t: string, p: int, u: string, w: string)
    requires HasAt(t, p, u + w)
    ensures HasAt(t, p, u) && HasAt(t, p + |u|, w)
  {
    SliceOfOccurrence(t, p, u + w, 0, |u|);
    assert (u + w)[..|u|] == u;
    SliceOfOccurrence(t, p, u + w, |u|, |u + w|);
    assert (u + w)[|u|..|u + w|] == w;
  }

  lemma NumeralCharNotSpace(c: char)
    requires IsNumeralChar(c)
    ensures !IsSpace(c) && c != 'T' && c != PlusMinus
  {
  }

  lemma FirstOfNumeral(s: string)
    requires IsNumeral(s)
    ensures |s| > 0 && !IsSpace(s[0])
  {
    NumeralChars(s);
    NumeralCharNotSpace(s[0]);
  }

  /** One space, then something else: `\s*` takes exactly the space. */
  lemma SkipOneSpace(t: string, p: nat)
    requires p + 1 < |t| && t[p] == ' ' && !IsSpace(t[p + 1])
    ensures SkipSpaces(t, p) == p + 1
  {
    assert IsSpace(t[p]);
    assert SkipSpaces(t, p) == SkipSpaces(t, p + 1);
  }

  lemma SkipNoSpace(t: string, p: nat)
    requires p < |t| && !IsSpace(t[p])
    ensures SkipSpaces(t, p) == p
  {
  }

  // ---------------------------------------------------------------------------
  // A summary line is one match of the pattern
  // ---------------------------------------------------------------------------

  lemma SummaryLength(v: string, std: Option<string>)
    ensures |SummaryLine(v, std)| == |Label| + |v| + |StdPart(std)| + 2 + |Unit|
    ensures |StdPart(std)| == if std.Some? then 3 + |std.value| else 0
  {
  }

  /** The pieces of a summary line found at `i`: the value spans `a..b`,
      the deviation part `b..e`, and the unit follows the space at `e`. */
  lemma SummaryPieces(t: string, i: nat, a: nat, b: nat, e: nat, v: string, std: Option<string>)
    requires a == i + |Label| + 1 && b == a + |v| && e == b + |StdPart(std)|
    requires HasAt(t, i, SummaryLine(v, std))
    ensures HasAt(t, i, Label) && t[i + |Label|] == ' ' && HasAt(t, a, v)
    ensures HasAt(t, b, StdPart(std)) && t[e] == ' ' && HasAt(t, e + 1, Unit)
    ensures i + |SummaryLine(v, std)| == e + 1 + |Unit|
  {
    LinePieces(t, i, a, b, v, LineTail(std));
    TailPieces(t, b, e, StdPart(std));
  }

  lemma LinePieces(t: string, i: nat, a: nat, b: nat, v: string, rest: string)
    requires a == i + |Label| + 1 && b == a + |v|
    requires HasAt(t, i, Label + " " + v + rest)
    ensures HasAt(t, i, Label) && t[i + |Label|] == ' '
    ensures HasAt(t, a, v) && HasAt(t, b, rest)
  {
    HasAtSplit(t, i, Label + " " + v, rest);
    HasAtSplit(t, i, Label + " ", v);
    HasAtSplit(t, i, Label, " ");
    CharOfOccurrence(t, i + |Label|, " ", 0);
  }

  lemma TailPieces(t: string, b: nat, e: nat, sp: string)
    requires e == b + |sp| && HasAt(t, b, sp + " " + Unit)
    ensures HasAt(t, b, sp) && t[e] == ' ' && HasAt(t, e + 1, Unit)
  {
    HasAtSplit(t, b, sp + " ", Unit);
    HasAtSplit(t, b, sp, " ");
    CharOfOccurrence(t, e, " ", 0);
  }

  /** The pieces of a ` ± <std>` part found at `b`; the numeral starts at `d`. */
  lemma StdPieces(t: string, b: nat, d: nat, std: Option<string>)
    requires d == b + 3 && std.Some? && HasAt(t, b, StdPart(std))
    ensures |StdPart(std)| == 3 + |std.value|
    ensures t[b] == ' ' && t[b + 1] == PlusMinus && t[b + 2] == ' '
    ensures HasAt(t, d, std.value)
  {
    var w := " " + [PlusMinus] + " ";
    assert StdPart(std) == w + std.value;
    HasAtSplit(t, b, w, std.value);
    CharOfOccurrence(t, b, w, 0);
    CharOfOccurrence(t, b, w, 1);
    CharOfOccurrence(t, b, w, 2);
  }

  /** A numeral followed by a space is scanned exactly. */
  lemma NumeralBeforeSpace(t: string, p: nat, s: string)
    requires HasAt(t, p, s) && IsNumeral(s)
    requires p + |s| < |t| && t[p + |s|] == ' '
    ensures ScanNumeral(t, p) == EndsAt(p + |s|)
  {
    assert !IsNumeralChar(t[p + |s|]);
    ScanNumeralExact(t, p, s);
  }

  /** After a value with no ` ± <std>`, the unit follows and no `±` does. */
  lemma StdEndAbsent(t: string, b: nat, z: nat)
    requires z == b + 1 + |Unit| && z <= |t| && t[b] == ' ' && HasAt(t, b + 1, Unit)
    ensures StdEnd(t, b).NoStd?
    ensures UnitEnd(t, b) == EndsAt(z)
  {
    CharOfOccurrence(t, b + 1, Unit, 0);
    SkipOneSpace(t, b);
  }

  /** After a value with ` ± <std>` and the unit, `StdEnd` finds them: the
      deviation spans `d..e` and the unit ends at `z`. */
  lemma StdEndPresent(t: string, b: nat, d: nat, e: nat, z: nat, s: string)
    requires d == b + 3 && e == d + |s| && z == e + 1 + |Unit| && e < |t|
    requires t[b] == ' ' && t[b + 1] == PlusMinus && t[b + 2] == ' '
    requires HasAt(t, d, s) && IsNumeral(s)
    requires t[e] == ' ' && HasAt(t, e + 1, Unit)
    ensures StdEnd(t, b) == Std(d, e, z)
    ensures t[d..e] == s
  {
    var c, w := b + 1, b + 2;
    assert !IsSpace(t[c]);
    SkipOneSpace(t, b);
    StdNumeral(t, w, d, e, s);
    StdUnit(t, e, z);
    StdEndOfScan(t, b, c, d, e, z);
  }

  /** The deviation numeral spans `d..e`, after the space at `w`. */
  lemma StdNumeral(t: string, w: nat, d: nat, e: nat, s: string)
    requires d == w + 1 && e == d + |s| && e < |t| && t[w] == ' ' && t[e] == ' '
    requires HasAt(t, d, s) && IsNumeral(s)
    ensures SkipSpaces(t, w) == d
    ensures ScanNumeral(t, d) == EndsAt(e)
  {
    FirstOfNumeral(s);
    CharOfOccurrence(t, d, s, 0);
    SkipOneSpace(t, w);
    NumeralBeforeSpace(t, d, s);
  }

  /** A space and the unit from `e` on: the unit ends at `z`. */
  lemma StdUnit(t: string, e: nat, z: nat)
    requires z == e + 1 + |Unit| && e < |t| && t[e] == ' ' && HasAt(t, e + 1, Unit)
    ensures UnitEnd(t, e) == EndsAt(z)
  {
    CharOfOccurrence(t, e + 1, Unit, 0);
    SkipOneSpace(t, e);
  }

  /** The value numeral of a line at `i`, spanning `a..b`. */
  lemma ValueOfLine(t: string, i: nat, a: nat, b: nat, v: string)
    requires a == i + |Label| + 1 && b == a + |v| && b < |t|
    requires HasAt(t, i, Label) && t[i + |Label|] == ' '
    requires HasAt(t, a, v) && IsNumeral(v) && t[b] == ' '
    ensures SkipSpaces(t, i + |Label|) == a
    ensures ScanNumeral(t, a) == EndsAt(b)
    ensures t[a..b] == v
  {
    FirstOfNumeral(v);
    CharOfOccurrence(t, a, v, 0);
    SkipOneSpace(t, i + |Label|);
    NumeralBeforeSpace(t, a, v);
  }

  /** A summary line at `i` is the match at `i`, and its groups are the
      line's value and standard deviation. */
  lemma SummaryLineMatches(t: string, i: nat, v: string, std: Option<string>)
    requires HasAt(t, i, SummaryLine(v, std)) && IsNumeral(v) && NumeralStd(std)
    ensures MatchAt(t, i) == Some(Match(i, i + |SummaryLine(v, std)|, v, std))
  {
    if std.None? {
      PlainSummaryMatches(t, i, v, std);
    } else {
      StdSummaryMatches(t, i, v, std);
    }
  }

  lemma PlainSummaryMatches(t: string, i: nat, v: string, std: Option<string>)
    requires std.None? && HasAt(t, i, SummaryLine(v, std)) && IsNumeral(v)
    ensures MatchAt(t, i) == Some(Match(i, i + |SummaryLine(v, std)|, v, std))
  {
    var a := i + |Label| + 1;
    var b := a + |v|;
    var z := i + |SummaryLine(v, std)|;
    assert StdPart(std) == [];
    SummaryPieces(t, i, a, b, b, v, std);
    PlainLineMatches(t, i, a, b, v, std, z);
    assert Match(i, z, v, std) == Match(i, i + |SummaryLine(v, std)|, v, std);
  }

  lemma StdSummaryMatches(t: string, i: nat, v: string, std: Option<string>)
    requires std.Some? && HasAt(t, i, SummaryLine(v, std)) && IsNumeral(v) && IsNumeral(std.value)
    ensures MatchAt(t, i) == Some(Match(i, i + |SummaryLine(v, std)|, v, std))
  {
    var a := i + |Label| + 1;
    var b := a + |v|;
    var d := b + 3;
    var e := b + |StdPart(std)|;
    var z := i + |SummaryLine(v, std)|;
    SummaryPieces(t, i, a, b, e, v, std);
    StdPieces(t, b, d, std);
    StdLineMatches(t, i, a, b, d, e, z, v, std);
    assert Match(i, z, v, std) == Match(i, i + |SummaryLine(v, std)|, v, std);
  }

  /** The layout of a summary line without a deviation, piece by piece: the
      value spans `a..b` and the unit ends at `z`. */
  lemma PlainLineMatches(t: string, i: nat, a: nat, b: nat, v: string, std: Option<string>, z: nat)
    requires std.None? && a == i + |Label| + 1 && b == a + |v| && z == b + 1 + |Unit| && z <= |t|
    requires HasAt(t, i, Label) && t[i + |Label|] == ' ' && HasAt(t, a, v) && IsNumeral(v)
    requires t[b] == ' ' && HasAt(t, b + 1, Unit)
    ensures MatchAt(t, i) == Some(Match(i, z, v, std))
  {
    ValueOfLine(t, i, a, b, v);
    StdEndAbsent(t, b, z);
    MatchAtWithoutStd(t, i, a, b, z, v, std);
  }

  /** The layout of a summary line with a deviation, piece by piece: the
      value spans `a..b`, the deviation `d..e`, and the unit ends at `z`. */
  lemma StdLineMatches(t: string, i: nat, a: nat, b: nat, d: nat, e: nat, z: nat, v: string, std: Option<string>)
    requires std.Some? && a == i + |Label| + 1 && b == a + |v| && d == b + 3 && e == d + |std.value| && e < |t|
    requires HasAt(t, i, Label) && t[i + |Label|] == ' ' && HasAt(t, a, v) && IsNumeral(v)
    requires t[b] == ' ' && t[b + 1] == PlusMinus && t[b + 2] == ' '
    requires HasAt(t, d, std.value) && IsNumeral(std.value)
    requires t[e] == ' ' && HasAt(t, e + 1, Unit) && z == e + 1 + |Unit|
    ensures MatchAt(t, i) == Some(Match(i, z, v, std))
  {
    ValueOfLine(t, i, a, b, v);
    StdEndPresent(t, b, d, e, z, std.value);
    MatchAtWithStd(t, i, a, b, d, e, z, v, std);
  }

  // ---------------------------------------------------------------------------
  // The last summary line wins
  // ---------------------------------------------------------------------------

  /** The value of a log whose last summary line is `SummaryLine(v, std)`,
      followed by text without a `T`, is `v` whatever precedes the line:
      later lines override earlier ones. */
  lemma LastSummaryWins(before: string, v: string, std: Option<string>, after: string)
    requires IsNumeral(v) && NumeralStd(std)
    requires forall k :: 0 <= k < |after| ==> after[k] != 'T'
    ensures Extract(before + SummaryLine(v, std) + after) == Some(v)
  {
    var line := SummaryLine(v, std);
    var t := before + line + after;
    var i := |before|;
    assert t[i..i + |line|] == line;
    SummaryLineMatches(t, i, v, std);
    MatchWithoutT(t, i);
    forall j | i < j < |t| ensures MatchAt(t, j).None? {
      if j < i + |line| {
        assert t[j] != 'T';
      } else {
        assert t[j] == after[j - i - |line|];
      }
    }
    assert IsLastMatch(t, i);
    ExtractLast(t, i);
  }

  /** A log without a `T` anywhere yields no value. */
  lemma NoLabelNoValue(t: string)
    requires forall k :: 0 <= k < |t| ==> t[k] != 'T'
    ensures Extract(t).None?
  {
    forall j | 0 <= j < |t| ensures MatchAt(t, j).None? {
      assert t[j] != 'T';
    }
  }

  /** The final summary line of the example log below, as printed. */
  lemma ExampleLine()
    ensures SummaryLine("45.6", Some("0.4")) == "Throughput: 45.6 ± 0.4 tokens/s"
  {
    assert StdPart(Some("0.4")) == " ± 0.4";
  }

  lemma ExampleNumerals()
    ensures IsNumeral("45.6") && IsNumeral("0.4")
  {
    DecimalNumeral("45", "6");
    assert "45" + "." + "6" == "45.6";
    DecimalNumeral("0", "4");
    assert "0" + "." + "4" == "0.4";
  }

  /** A log with a warm-up line, an earlier summary and, last, the summary
      `Throughput: 45.6 ± 0.4 tokens/s`: its value is that of the last one. */
  lemma ExampleLog()
    ensures Extract("warmup...\nThroughput: 12.3 tokens/s\n" + SummaryLine("45.6", Some("0.4")) + "\n") == Some("45.6")
  {
    ExampleNumerals();
    LastSummaryWins("warmup...\nThroughput: 12.3 tokens/s\n", "45.6", Some("0.4"), "\n");
  }

  /** `<digits>.<digits>` is a numeral. */
  lemma DecimalNumeral(w: string, f: string)
    requires |w| > 0 && AllDigits(w) && AllDigits(f)
    ensures IsNumeral(w + "." + f)
  {
    var s := w + "." + f;
    var m := s[0..|s|];
    assert m[|w|] == '.' && m[..|w|] == w && m[|w| + 1..] == f;
    assert IsMantissa(m);
    assert s[..0] == [] && s[|s|..] == [];
  }
}

=== FILE: sweep.dfy ===
/** The sweep loop of `main`: for every seqlen (outer) and every model
    (inner), run the benchmark unless the model directory is missing, record
    the extracted value in the matrix and persist the whole matrix again. */
module Sweep {
  import opened Wrappers
  import opened Command
  import opened CsvMatrix
  import opened Sequences

  /** What the benchmark process hands back: its merged output text and its
      exit code. */
  datatype Output = Output(text: string, exitCode: int)

  /** The observable effects of the sweep, in order: a benchmark run with its
      argument vector, or a write of the whole matrix (the file then holds
      `CsvRows(models, snapshot)`). */
  datatype Event = Invoke(argv: seq<string>) | Persist(snapshot: seq<Row>)

  /** Everything the sweep depends on. The file system and the benchmark are
      oracles: `paths` is the set of paths that exist, so a model directory
      passes `Path.exists` exactly when it is in `paths`, and
      `bench(i, j, argv)` is the output of the run for seqlen `i` and model
      `j` (each run may behave differently, hence the cell position).
      `extract` reads the value out of a run's output; the program passes
      the throughput extractor. */
  datatype Env = Env(
    root: string,
    binary: string,
    models: seq<string>,
    seqlens: seq<int>,
    cpuCore: Option<string>,
    tasksetFound: bool,
    paths: set<string>,
    bench: (nat, nat, seq<string>) -> Output,
    extract: string -> Option<string>)

  /** The matrix as it stands and every event so far. */
  datatype State = State(rows: seq<Row>, trace: seq<Event>)

  /** `root / "model" / m`. */
  function ModelDir(root: string, m: string): (dir: string)
    ensures |dir| == |root| + 7 + |m| && dir[..|root|] == root && dir[|root| + 7..] == m
  {
    root + "/model/" + m
  }

  predicate InSweep(env: Env, i: int, j: int) {
    0 <= i < |env.seqlens| && 0 <= j < |env.models|
  }

  predicate Present(env: Env, j: int)
    requires 0 <= j < |env.models|
  {
    ModelDir(env.root, env.models[j]) in env.paths
  }

  /** The command run for seqlen `i` and model `j`. */
  function CellCommand(env: Env, i: int, j: int): seq<string>
    requires InSweep(env, i, j)
  {
    CommandLine(env.binary, ModelDir(env.root, env.models[j]), env.seqlens[i], env.cpuCore, env.tasksetFound)
  }

  /** What the cell for seqlen `i` and model `j` ends up holding: nothing
      when the directory is missing, otherwise whatever the extractor finds
      in the run's output, whatever the exit code. */
  function CellValue(env: Env, i: int, j: int): Option<string>
    requires InSweep(env, i, j)
  {
    if Present(env, j) then env.extract(env.bench(i, j, CellCommand(env, i, j)).text) else None
  }

  // ---------------------------------------------------------------------------
  // The loop
  // ---------------------------------------------------------------------------

  /** `values[m] = v` in row `i`. */
  function SetCell(rows: seq<Row>, i: int, m: string, v: Option<string>): (r: seq<Row>)
    requires 0 <= i < |rows|
    ensures |r| == |rows|
  {
    rows[i := rows[i].(values := rows[i].values[m := v])]
  }

  /** `{m: None for m in models}` for every seqlen. */
  function InitialRows(env: Env): (rows: seq<Row>)
    ensures |rows| == |env.seqlens|
  {
    EmptyRows(env, |env.seqlens|)
  }

  /** The empty rows of the first `n` seqlens. */
  function EmptyRows(env: Env, n: nat): (rows: seq<Row>)
    requires n <= |env.seqlens|
    ensures |rows| == n
    ensures forall i :: 0 <= i < n ==> rows[i] == InitialRow(env, i)
    decreases n
  {
    if n == 0 then [] else EmptyRows(env, n - 1) + [InitialRow(env, n - 1)]
  }

  function InitialRow(env: Env, i: int): Row
    requires 0 <= i < |env.seqlens|
  {
    Row(env.seqlens[i], NoValues(env.models))
  }

  /** `{m: None for m in models}`. */
  function NoValues(models: seq<string>): (values: map<string, Option<string>>)
    ensures forall m :: m in values <==> m in models
    ensures forall m :: m in values ==> values[m] == None
    decreases |models|
  {
    if |models| == 0 then map[] else NoValues(models[..|models| - 1])[models[|models| - 1] := None]
  }

  /** The empty table is written once before the first run. */
  function Initial(env: Env): State {
    State(InitialRows(env), [Persist(InitialRows(env))])
  }

  /** One pass of the inner loop body, for seqlen `i` and model `j`: it
      writes the cell's value into its own cell and nowhere else, runs the
      benchmark exactly when the model directory exists, and persists the
      matrix once, after the update. */
  function Step(env: Env, s: State, i: int, j: int): (r: State)
    requires InSweep(env, i, j) && |s.rows| == |env.seqlens|
    ensures |r.rows| == |s.rows|
    ensures forall i2 :: 0 <= i2 < |s.rows| && i2 != i ==> r.rows[i2] == s.rows[i2]
    ensures r.rows[i].seqlen == s.rows[i].seqlen
    ensures r.rows[i].values.Keys == s.rows[i].values.Keys + {env.models[j]}
    ensures r.rows[i].values[env.models[j]] == CellValue(env, i, j)
    ensures forall m :: m in s.rows[i].values && m != env.models[j] ==> r.rows[i].values[m] == s.rows[i].values[m]
    ensures r.trace == s.trace + StepEvents(env, i, j, r.rows)
  {
    var m := env.models[j];
    var dir := ModelDir(env.root, m);
    if dir !in env.paths then
      var rows := SetCell(s.rows, i, m, None);
      State(rows, s.trace + [Persist(rows)])
    else
      var argv := CommandLine(env.binary, dir, env.seqlens[i], env.cpuCore, env.tasksetFound);
      var out := env.bench(i, j, argv);
      var rows := SetCell(s.rows, i, m, env.extract(out.text));
      assert s.trace + [Invoke(argv), Persist(rows)] == s.trace + [Invoke(argv)] + [Persist(rows)];
      State(rows, s.trace + [Invoke(argv), Persist(rows)])
  }

  /** The inner loop over the models, from model `j` on: it touches only
      the row of seqlen `i` and only appends to the trace. */
  function RunModels(env: Env, s: State, i: int, j: int): (r: State)
    requires 0 <= i < |env.seqlens| && 0 <= j <= |env.models| && |s.rows| == |env.seqlens|
    ensures |r.rows| == |s.rows|
    ensures forall i2 :: 0 <= i2 < |s.rows| && i2 != i ==> r.rows[i2] == s.rows[i2]
    ensures r.rows[i].seqlen == s.rows[i].seqlen
    ensures s.trace <= r.trace
    decreases |env.models| - j
  {
    if j == |env.models| then s else RunModels(env, Step(env, s, i, j), i, j + 1)
  }

  /** The outer loop over the seqlens, from seqlen `i` on: it leaves the
      rows of the seqlens before `i` alone, keeps every row's seqlen and
      only appends to the trace. */
  function RunRows(env: Env, s: State, i: int): (r: State)
    requires 0 <= i <= |env.seqlens| && |s.rows| == |env.seqlens|
    ensures |r.rows| == |s.rows|
    ensures forall i2 :: 0 <= i2 < i ==> r.rows[i2] == s.rows[i2]
    ensures forall i2 :: 0 <= i2 < |s.rows| ==> r.rows[i2].seqlen == s.rows[i2].seqlen
    ensures s.trace <= r.trace
    decreases |env.seqlens| - i
  {
    if i == |env.seqlens| then s else RunRows(env, RunModels(env, s, i, 0), i + 1)
  }

  /** The whole sweep: the empty table, then every cell in turn. In closed
      form: the final matrix holds every cell's value, and the events are
      the write of the empty table followed, for every cell in sweep order
      (seqlen outer, model inner), by a run when its model directory exists
      and a write of the matrix holding exactly the cells done so far. */
  function RunSweep(env: Env): (r: State)
    ensures |r.rows| == |env.seqlens|
    ensures r.rows == Filled(env, Cells(env))
    ensures r.trace == [Persist(Filled(env, 0))] + EventsFrom(env, 0, Cells(env))
  {
    RunRowsFilled(env, Initial(env), 0);
    RunRows(env, Initial(env), 0)
  }

  /** Started on the matrix of the cells before `(i, j)`, the inner loop
      yields the matrix of the cells up to the end of seqlen `i`, ... */
  lemma {:induction false} RunModelsRows(env: Env, s: State, i: int, j: int, k: int)
    requires 0 <= i < |env.seqlens| && 0 <= j <= |env.models|
    requires k == RowStart(env, i) + j && k <= Cells(env) && s.rows == Filled(env, k)
    ensures RunModels(env, s, i, j).rows == Filled(env, RowStart(env, i + 1))
    decreases |env.models| - j
  {
    RowStartNext(env, i);
    if j < |env.models| {
      StepFilledRows(env, s, i, j, k);
      RunModelsRows(env, Step(env, s, i, j), i, j + 1, k + 1);
    }
  }

  /** ... appending the events of those cells, in order. */
  lemma {:induction false} RunModelsTrace(env: Env, s: State, i: int, j: int, k: int)
    requires 0 <= i < |env.seqlens| && 0 <= j <= |env.models|
    requires k == RowStart(env, i) + j && k <= Cells(env) && s.rows == Filled(env, k)
    ensures RunModels(env, s, i, j).trace == s.trace + EventsFrom(env, k, RowStart(env, i + 1))
    decreases |env.models| - j
  {
    RowStartNext(env, i);
    var b := RowStart(env, i + 1);
    if j < |env.models| {
      var s1 := Step(env, s, i, j);
      StepFilledRows(env, s, i, j, k);
      StepFilledTrace(env, s, i, j, k);
      RunModelsTrace(env, s1, i, j + 1, k + 1);
      EventsFromFirst(env, k, b);
      Chain(s.trace, s1.trace, RunModels(env, s1, i, j + 1).trace, CellEvents(env, k), EventsFrom(env, k + 1, b), EventsFrom(env, k, b));
    }
  }

  /** Started on the matrix of the cells before seqlen `i`, the outer loop
      does every remaining cell, in order. */
  lemma RunRowsFilled(env: Env, s: State, i: int)
    requires 0 <= i <= |env.seqlens|
    requires s.rows == Filled(env, RowStart(env, i))
    ensures RunRows(env, s, i).rows == Filled(env, Cells(env))
    ensures RunRows(env, s, i).trace == s.trace + EventsFrom(env, RowStart(env, i), Cells(env))
  {
    RunRowsRows(env, s, i);
    RunRowsTrace(env, s, i);
  }

  lemma {:induction false} RunRowsRows(env: Env, s: State, i: int)
    requires 0 <= i <= |env.seqlens|
    requires s.rows == Filled(env, RowStart(env, i))
    ensures RunRows(env, s, i).rows == Filled(env, Cells(env))
    decreases |env.seqlens| - i
  {
    if i < |env.seqlens| {
      RunRowsNext(env, s, i);
      RunRowsRows(env, RunModels(env, s, i, 0), i + 1);
    } else {
      RowStartEnd(env, i);
    }
  }

  lemma {:induction false} RunRowsTrace(env: Env, s: State, i: int)
    requires 0 <= i <= |env.seqlens|
    requires s.rows == Filled(env, RowStart(env, i))
    ensures RunRows(env, s, i).trace == s.trace + EventsFrom(env, RowStart(env, i), Cells(env))
    decreases |env.seqlens| - i
  {
    if i < |env.seqlens| {
      RunRowsNext(env, s, i);
      RunRowsTrace(env, RunModels(env, s, i, 0), i + 1);
      RunRowsTraceStep(env, s, i);
    } else {
      RowStartEnd(env, i);
    }
  }

  /** Row `i` leaves the matrix filled up to the start of row `i + 1`. */
  lemma RunRowsNext(env: Env, s: State, i: int)
    requires 0 <= i < |env.seqlens|
    requires s.rows == Filled(env, RowStart(env, i))
    ensures RowStart(env, i + 1) <= Cells(env)
    ensures RunModels(env, s, i, 0).rows == Filled(env, RowStart(env, i + 1))
    ensures RunRows(env, s, i) == RunRows(env, RunModels(env, s, i, 0), i + 1)
  {
    RowStartNext(env, i);
    RunModelsRows(env, s, i, 0, RowStart(env, i));
  }

  lemma RowStartEnd(env: Env, i: int)
    requires i == |env.seqlens|
    ensures RowStart(env, i) == Cells(env)
  {
  }

  lemma RunRowsTraceStep(env: Env, s: State, i: int)
    requires 0 <= i < |env.seqlens|
    requires s.rows == Filled(env, RowStart(env, i))
    requires RowStart(env, i + 1) <= Cells(env)
    requires var s1 := RunModels(env, s, i, 0);
      RunRows(env, s1, i + 1).trace == s1.trace + EventsFrom(env, RowStart(env, i + 1), Cells(env))
    ensures RunRows(env, s, i).trace == s.trace + EventsFrom(env, RowStart(env, i), Cells(env))
  {
    var a, b := RowStart(env, i), RowStart(env, i + 1);
    RowStartNext(env, i);
    var s1 := RunModels(env, s, i, 0);
    RunModelsTrace(env, s, i, 0, a);
    EventsFromSplit(env, a, b, Cells(env));
    Chain(s.trace, s1.trace, RunRows(env, s1, i + 1).trace, EventsFrom(env, a, b), EventsFrom(env, b, Cells(env)), EventsFrom(env, a, Cells(env)));
  }

  // ---------------------------------------------------------------------------
  // One step
  // ---------------------------------------------------------------------------

  /** The events of the cell for seqlen `i` and model `j`, given the matrix
      after it: a run only when the directory exists, then one write. */
  function StepEvents(env: Env, i: int, j: int, rows: seq<Row>): seq<Event>
    requires InSweep(env, i, j)
  {
    (if Present(env, j) then [Invoke(CellCommand(env, i, j))] else []) + [Persist(rows)]
  }

  // ---------------------------------------------------------------------------
  // Cells in sweep order
  // ---------------------------------------------------------------------------

  function IndexOf(xs: seq<string>, x: string): (k: nat)
    requires x in xs
    ensures k < |xs| && xs[k] == x
    ensures forall k2 :: 0 <= k2 < k ==> xs[k2] != x
  {
    if xs[0] == x then 0 else 1 + IndexOf(xs[1..], x)
  }

  /** `a * b` as repeated addition: positions are products, and proofs
      about them unfold this only as far as they need. */
  function Mul(a: nat, b: nat): nat
    decreases a
  {
    if a == 0 then 0 else b + Mul(a - 1, b)
  }

  lemma {:induction false} MulIsProduct(a: nat, b: nat)
    ensures Mul(a, b) == a * b
    decreases a
  {
    if a > 0 {
      MulIsProduct(a - 1, b);
      assert a * b == (a - 1) * b + b;
    }
  }

  lemma {:induction false} MulMonotone(a: nat, b: nat, m: nat)
    requires a <= b
    ensures Mul(a, m) <= Mul(b, m)
    decreases b - a
  {
    if a < b {
      MulMonotone(a, b - 1, m);
    }
  }

  /** The position of a cell in the sweep: seqlen outer, model inner. */
  function Pos(env: Env, i: nat, j: int): int {
    Mul(i, |env.models|) + j
  }

  function Cells(env: Env): nat {
    Mul(|env.seqlens|, |env.models|)
  }

  lemma PosBelow(m: nat, i: nat, j: nat, i2: nat, j2: nat)
    requires j < m && j2 < m && i2 < i
    ensures Mul(i2, m) + j2 < Mul(i, m) + j
  {
    assert Mul(i2 + 1, m) == m + Mul(i2, m);
    MulMonotone(i2 + 1, i, m);
  }

  /** Distinct cells have distinct positions, ordered seqlen first. */
  lemma PosOrder(env: Env, i: int, j: int, i2: int, j2: int)
    requires InSweep(env, i, j) && InSweep(env, i2, j2)
    ensures Pos(env, i2, j2) < Pos(env, i, j) <==> i2 < i || (i2 == i && j2 < j)
  {
    var m := |env.models|;
    if i2 < i {
      PosBelow(m, i, j, i2, j2);
    } else if i < i2 {
      PosBelow(m, i2, j2, i, j);
    }
  }

  lemma PosDistinct(env: Env, i: int, j: int, i2: int, j2: int)
    requires InSweep(env, i, j) && InSweep(env, i2, j2) && i != i2
    ensures Pos(env, i, j) != Pos(env, i2, j2)
  {
    PosOrder(env, i, j, i2, j2);
    PosOrder(env, i2, j2, i, j);
  }

  lemma PosInSweep(env: Env, i: int, j: int)
    requires InSweep(env, i, j)
    ensures 0 <= Pos(env, i, j) < Cells(env)
  {
    PosBelow(|env.models|, |env.seqlens|, 0, i, j);
  }

  /** The position of the first model of seqlen `i`. */
  function RowStart(env: Env, i: int): (p: nat)
    requires 0 <= i <= |env.seqlens|
    ensures p == Pos(env, i, 0) && p <= Cells(env)
  {
    MulMonotone(i, |env.seqlens|, |env.models|);
    Mul(i, |env.models|)
  }

  lemma RowStartNext(env: Env, i: int)
    requires 0 <= i < |env.seqlens|
    ensures RowStart(env, i + 1) == RowStart(env, i) + |env.models|
  {
  }

  /** The seqlen index of the cell at position `p` when there are `m`
      models: how many whole rows of models come before it. */
  function SeqlenOf(m: nat, p: nat): nat
    requires m > 0
    decreases p
  {
    if p < m then 0 else 1 + SeqlenOf(m, p - m)
  }

  /** The model index of the cell at position `p` when there are `m`
      models. */
  function ModelOf(m: nat, p: nat): (j: nat)
    requires m > 0
    ensures j < m
    decreases p
  {
    if p < m then p else ModelOf(m, p - m)
  }

  lemma {:induction false} PosOfCell(env: Env, p: nat)
    requires |env.models| > 0
    ensures Pos(env, SeqlenOf(|env.models|, p), ModelOf(|env.models|, p)) == p
    decreases p
  {
    var m := |env.models|;
    if p >= m {
      PosOfCell(env, p - m);
      var i := SeqlenOf(m, p - m);
      assert Mul(i + 1, m) == m + Mul(i, m);
    }
  }

  /** The seqlen and the model of the cell at position `p`. */
  lemma CellAt(env: Env, p: int)
    requires 0 <= p < Cells(env)
    ensures |env.models| > 0
    ensures InSweep(env, SeqlenOf(|env.models|, p), ModelOf(|env.models|, p))
    ensures Pos(env, SeqlenOf(|env.models|, p), ModelOf(|env.models|, p)) == p
  {
    var m := |env.models|;
    assert m > 0 by {
      MulIsProduct(|env.seqlens|, m);
    }
    PosOfCell(env, p);
    var i := SeqlenOf(|env.models|, p);
    if i >= |env.seqlens| {
      MulMonotone(|env.seqlens|, i, m);
    }
  }

  /** A position determines its seqlen and its model. */
  lemma CellOfPos(env: Env, i: int, j: int)
    requires InSweep(env, i, j)
    ensures 0 <= Pos(env, i, j) < Cells(env)
    ensures SeqlenOf(|env.models|, Pos(env, i, j)) == i && ModelOf(|env.models|, Pos(env, i, j)) == j
  {
    var p := Pos(env, i, j);
    PosInSweep(env, i, j);
    CellAt(env, p);
    PosOrder(env, i, j, SeqlenOf(|env.models|, p), ModelOf(|env.models|, p));
    PosOrder(env, SeqlenOf(|env.models|, p), ModelOf(|env.models|, p), i, j);
  }

  /** The matrix once the first `k` cells, in sweep order, are done: the
      cells before `k` hold their values, in the order the loop writes them. */
  function Filled(env: Env, k: int): (rows: seq<Row>)
    requires 0 <= k <= Cells(env)
    ensures |rows| == |env.seqlens|
  {
    if k == 0 then
      InitialRows(env)
    else
      var p := k - 1;
      CellAt(env, p);
      var i, j := SeqlenOf(|env.models|, p), ModelOf(|env.models|, p);
      SetCell(Filled(env, p), i, env.models[j], CellValue(env, i, j))
  }

  /** The events of the cell at position `k`, given the matrix after it. */
  function CellEvents(env: Env, k: int): seq<Event>
    requires 0 <= k < Cells(env)
  {
    CellAt(env, k);
    StepEvents(env, SeqlenOf(|env.models|, k), ModelOf(|env.models|, k), Filled(env, k + 1))
  }

  /** The events of the cells at positions `a` up to `b`, in order. */
  function EventsFrom(env: Env, a: int, b: int): seq<Event>
    requires 0 <= a && b <= Cells(env)
    decreases b - a
  {
    if a >= b then [] else CellEvents(env, a) + EventsFrom(env, a + 1, b)
  }

  lemma EventsFromFirst(env: Env, a: int, b: int)
    requires 0 <= a < b <= Cells(env)
    ensures EventsFrom(env, a, b) == CellEvents(env, a) + EventsFrom(env, a + 1, b)
  {
  }

  lemma {:induction false} EventsFromSplit(env: Env, a: int, b: int, c: int)
    requires 0 <= a <= b <= c <= Cells(env)
    ensures EventsFrom(env, a, c) == EventsFrom(env, a, b) + EventsFrom(env, b, c)
    decreases b - a
  {
    if a < b {
      var x, y, z := CellEvents(env, a), EventsFrom(env, a + 1, b), EventsFrom(env, b, c);
      EventsFromSplit(env, a + 1, b, c);
      EventsFromFirst(env, a, b);
      EventsFromFirst(env, a, c);
      Chain(x, EventsFrom(env, a, b), EventsFrom(env, a, b) + z, y, z, EventsFrom(env, a + 1, c));
    }
  }

  /** After the first `k` cells every row keeps its seqlen and has exactly
      the models as keys. */
  lemma {:induction false} FilledShape(env: Env, k: int, i: int)
    requires 0 <= k <= Cells(env) && 0 <= i < |env.seqlens|
    ensures Filled(env, k)[i].seqlen == env.seqlens[i]
    ensures forall m :: m in Filled(env, k)[i].values <==> m in env.models
  {
    if k > 0 {
      CellAt(env, k - 1);
      FilledShape(env, k - 1, i);
    }
  }

  /** The closed form of the matrix: after the first `k` cells, a cell holds
      its value exactly when its position is below `k` — every cell is
      written once, in sweep order, and never touched again. */
  lemma {:induction false} FilledCell(env: Env, k: int, i: int, j: int)
    requires Distinct(env.models) && 0 <= k <= Cells(env) && InSweep(env, i, j)
    ensures env.models[j] in Filled(env, k)[i].values
    ensures Filled(env, k)[i].values[env.models[j]] == if Pos(env, i, j) < k then CellValue(env, i, j) else None
  {
    FilledShape(env, k, i);
    if k > 0 {
      var p := k - 1;
      CellAt(env, p);
      var i1, j1 := SeqlenOf(|env.models|, p), ModelOf(|env.models|, p);
      FilledCell(env, p, i, j);
      assert Filled(env, k) == SetCell(Filled(env, p), i1, env.models[j1], CellValue(env, i1, j1));
      SetCellLookup(Filled(env, p), i1, env.models[j1], CellValue(env, i1, j1), i, env.models[j]);
      assert (i == i1 && env.models[j] == env.models[j1]) <==> (i == i1 && j == j1) by {
        if j < j1 {
          assert env.models[j] != env.models[j1];
        } else if j1 < j {
          assert env.models[j1] != env.models[j];
        }
      }
      assert (i == i1 && j == j1) <==> Pos(env, i, j) == p by {
        if i != i1 {
          PosDistinct(env, i1, j1, i, j);
        }
      }
    }
  }

  /** Reading a cell after `SetCell`: the written cell holds the new value,
      every other cell its old one. */
  lemma SetCellLookup(rows: seq<Row>, i: int, m: string, v: Option<string>, i2: int, m2: string)
    requires 0 <= i < |rows| && 0 <= i2 < |rows| && m2 in rows[i2].values
    ensures m2 in SetCell(rows, i, m, v)[i2].values
    ensures SetCell(rows, i, m, v)[i2].values[m2] == if i2 == i && m2 == m then v else rows[i2].values[m2]
  {
  }

  /** Whatever the models, listed twice or not, a value in the matrix is
      the value of a cell of that row whose model has that name. */
  lemma {:induction false} FilledValueOrigin(env: Env, k: int, i: int, m: string)
    requires 0 <= k <= Cells(env) && 0 <= i < |env.seqlens| && m in Filled(env, k)[i].values
    requires Filled(env, k)[i].values[m].Some?
    ensures exists j :: 0 <= j < |env.models| && env.models[j] == m && Filled(env, k)[i].values[m] == CellValue(env, i, j)
  {
    var p := k - 1;
    CellAt(env, p);
    var i1, j1 := SeqlenOf(|env.models|, p), ModelOf(|env.models|, p);
    if i1 != i || env.models[j1] != m {
      FilledValueOrigin(env, p, i, m);
    }
  }

  lemma StepRows(env: Env, s: State, i: int, j: int)
    requires InSweep(env, i, j) && |s.rows| == |env.seqlens|
    ensures Step(env, s, i, j).rows == SetCell(s.rows, i, env.models[j], CellValue(env, i, j))
    ensures Step(env, s, i, j).trace == s.trace + StepEvents(env, i, j, Step(env, s, i, j).rows)
  {
  }

  /** One step from the matrix of the first `k` cells, `k` the position of
      the step's cell, yields the matrix of the first `k + 1`. */
  lemma StepFilledRows(env: Env, s: State, i: int, j: int, k: int)
    requires InSweep(env, i, j) && k == Pos(env, i, j) && k < Cells(env)
    requires s.rows == Filled(env, k)
    ensures 0 <= k < Cells(env)
    ensures Step(env, s, i, j).rows == Filled(env, k + 1)
  {
    PosInSweep(env, i, j);
    StepRows(env, s, i, j);
    CellOfPos(env, i, j);
  }

  /** ... and appends that cell's events to the trace. */
  lemma StepFilledTrace(env: Env, s: State, i: int, j: int, k: int)
    requires InSweep(env, i, j) && k == Pos(env, i, j) && k < Cells(env)
    requires s.rows == Filled(env, k)
    ensures 0 <= k < Cells(env)
    ensures Step(env, s, i, j).trace == s.trace + CellEvents(env, k)
  {
    StepFilledRows(env, s, i, j, k);
    StepRows(env, s, i, j);
    CellOfPos(env, i, j);
  }

  lemma Chain(t0: seq<Event>, t1: seq<Event>, t2: seq<Event>, e1: seq<Event>, e2: seq<Event>, e: seq<Event>)
    requires t1 == t0 + e1 && t2 == t1 + e2 && e == e1 + e2
    ensures t2 == t0 + e
  {
    assert (t0 + e1) + e2 == t0 + (e1 + e2);
  }
}

=== FILE: sweep_facts.dfy ===
/** What the sweep promises as a whole: how often and what it writes, which
    benchmark runs it makes, and that exit codes play no part in it. */
module SweepFacts {
  import opened Wrappers
  import opened Sequences
  import opened Command
  import opened Throughput
  import opened CsvMatrix
  import opened Sweep

  // ---------------------------------------------------------------------------
  // Writes
  // ---------------------------------------------------------------------------

  /** The matrices written, in order. */
  function Snapshots(trace: seq<Event>): (snaps: seq<seq<Row>>)
    ensures |snaps| <= |trace|
  {
    if |trace| == 0 then []
    else (if trace[0].Persist? then [trace[0].snapshot] else []) + Snapshots(trace[1..])
  }

  lemma {:induction false} SnapshotsAppend(a: seq<Event>, b: seq<Event>)
    ensures Snapshots(a + b) == Snapshots(a) + Snapshots(b)
    decreases |a|
  {
    if |a| == 0 {
      assert a + b == b;
    } else {
      assert (a + b)[0] == a[0] && (a + b)[1..] == a[1..] + b;
      SnapshotsAppend(a[1..], b);
    }
  }

  /** The matrices after `a`, `a + 1`, ..., `b - 1` cells. */
  function FilledFrom(env: Env, a: int, b: int): (snaps: seq<seq<Row>>)
    requires 0 <= a && b <= Cells(env) + 1
    ensures |snaps| == if a <= b then b - a else 0
    decreases b - a
  {
    if a >= b then [] else [Filled(env, a)] + FilledFrom(env, a + 1, b)
  }

  lemma {:induction false} FilledFromAt(env: Env, a: int, b: int, n: int)
    requires 0 <= a && b <= Cells(env) + 1 && 0 <= n < b - a
    ensures FilledFrom(env, a, b)[n] == Filled(env, a + n)
    decreases n
  {
    if n > 0 {
      FilledFromAt(env, a + 1, b, n - 1);
    }
  }

  lemma CellSnapshots(env: Env, k: int)
    requires 0 <= k < Cells(env)
    ensures Snapshots(CellEvents(env, k)) == [Filled(env, k + 1)]
  {
    CellAt(env, k);
    var i, j := SeqlenOf(|env.models|, k), ModelOf(|env.models|, k);
    var rows := Filled(env, k + 1);
    var runs: seq<Event> := if Present(env, j) then [Invoke(CellCommand(env, i, j))] else [];
    SnapshotsAppend(runs, [Persist(rows)]);
    assert Snapshots([Persist(rows)]) == [rows];
  }

  /** The cells from `a` to `b` write the matrices after `a + 1`, ...,
      `b` cells, one write per cell. */
  lemma {:induction false} EventsFromSnapshots(env: Env, a: int, b: int)
    requires 0 <= a <= b <= Cells(env)
    ensures Snapshots(EventsFrom(env, a, b)) == FilledFrom(env, a + 1, b + 1)
    decreases b - a
  {
    if a < b {
      EventsFromSnapshots(env, a + 1, b);
      SnapshotsOfFirstCell(env, a, b);
    }
  }

  /** The first cell's write comes before those of the cells after it. */
  lemma SnapshotsOfFirstCell(env: Env, a: int, b: int)
    requires 0 <= a < b <= Cells(env)
    requires Snapshots(EventsFrom(env, a + 1, b)) == FilledFrom(env, a + 2, b + 1)
    ensures Snapshots(EventsFrom(env, a, b)) == FilledFrom(env, a + 1, b + 1)
  {
    SnapshotsFirst(env, a, b);
  }

  lemma SnapshotsFirst(env: Env, a: int, b: int)
    requires 0 <= a < b <= Cells(env)
    ensures Snapshots(EventsFrom(env, a, b)) == [Filled(env, a + 1)] + Snapshots(EventsFrom(env, a + 1, b))
  {
    var cell, rest := CellEvents(env, a), EventsFrom(env, a + 1, b);
    assert EventsFrom(env, a, b) == cell + rest by {
      EventsFromFirst(env, a, b);
    }
    assert Snapshots(cell) == [Filled(env, a + 1)] by {
      CellSnapshots(env, a);
    }
    SnapshotsAppend(cell, rest);
  }

  lemma SnapshotsStep(cell: seq<Event>, rest: seq<Event>, all: seq<Event>, x: seq<Row>, xs: seq<seq<Row>>, snaps: seq<seq<Row>>)
    requires all == cell + rest && Snapshots(cell) == [x] && Snapshots(rest) == xs && snaps == [x] + xs
    ensures Snapshots(all) == snaps
  {
    SnapshotsAppend(cell, rest);
  }

  lemma SweepWrites(env: Env)
    ensures Snapshots(RunSweep(env).trace) == FilledFrom(env, 0, Cells(env) + 1)
  {
    var first: seq<Event> := [Persist(Filled(env, 0))];
    var rest := EventsFrom(env, 0, Cells(env));
    assert Snapshots(first) == [Filled(env, 0)] by {
      assert first[1..] == [];
    }
    assert Snapshots(rest) == FilledFrom(env, 1, Cells(env) + 1) by {
      EventsFromSnapshots(env, 0, Cells(env));
    }
    assert FilledFrom(env, 0, Cells(env) + 1) == [Filled(env, 0)] + FilledFrom(env, 1, Cells(env) + 1);
    SnapshotsStep(first, rest, RunSweep(env).trace, Filled(env, 0), FilledFrom(env, 1, Cells(env) + 1), FilledFrom(env, 0, Cells(env) + 1));
  }

  /** The sweep writes the table `1 + |seqlens| * |models|` times: once
      empty, then after every cell, and the `n`-th write holds exactly the
      first `n` cells. */
  lemma SweepSnapshots(env: Env)
    ensures Cells(env) == |env.seqlens| * |env.models|
    ensures |Snapshots(RunSweep(env).trace)| == 1 + |env.seqlens| * |env.models|
    ensures forall n :: 0 <= n < |Snapshots(RunSweep(env).trace)| ==> Snapshots(RunSweep(env).trace)[n] == Filled(env, n)
  {
    SweepWrites(env);
    MulIsProduct(|env.seqlens|, |env.models|);
    AllFilled(env);
  }

  lemma AllFilled(env: Env)
    ensures forall n :: 0 <= n < Cells(env) + 1 ==> FilledFrom(env, 0, Cells(env) + 1)[n] == Filled(env, n)
  {
    forall n | 0 <= n < Cells(env) + 1 ensures FilledFrom(env, 0, Cells(env) + 1)[n] == Filled(env, n) {
      FilledFromAt(env, 0, Cells(env) + 1, n);
    }
  }

  // ---------------------------------------------------------------------------
  // Runs
  // ---------------------------------------------------------------------------

  /** The argument vectors of the benchmark runs, in order. */
  function Runs(trace: seq<Event>): (runs: seq<seq<string>>)
    ensures |runs| <= |trace|
  {
    if |trace| == 0 then []
    else (if trace[0].Invoke? then [trace[0].argv] else []) + Runs(trace[1..])
  }

  lemma {:induction false} RunsAppend(a: seq<Event>, b: seq<Event>)
    ensures Runs(a + b) == Runs(a) + Runs(b)
    decreases |a|
  {
    if |a| == 0 {
      assert a + b == b;
    } else {
      assert (a + b)[0] == a[0] && (a + b)[1..] == a[1..] + b;
      RunsAppend(a[1..], b);
    }
  }

  /** Two cells that run the same command belong to the same model name
      and the same seqlen: the model name is the last component of the
      model directory on the command line. */
  lemma SameCommandSameCell(env: Env, i: int, j: int, i2: int, j2: int)
    requires InSweep(env, i, j) && InSweep(env, i2, j2)
    requires CellCommand(env, i, j) == CellCommand(env, i2, j2)
    ensures env.models[j] == env.models[j2] && env.seqlens[i] == env.seqlens[i2]
  {
    var d1, d2 := ModelDir(env.root, env.models[j]), ModelDir(env.root, env.models[j2]);
    CommandLineInjective(env.binary, d1, env.seqlens[i], env.binary, d2, env.seqlens[i2], env.cpuCore, env.tasksetFound);
    assert env.models[j] == d1[|env.root| + 7..] == env.models[j2];
  }

  /** Different cells run different commands, as long as no model and no
      seqlen is listed twice. */
  lemma CellCommandInjective(env: Env, i: int, j: int, i2: int, j2: int)
    requires Distinct(env.models) && Distinct(env.seqlens)
    requires InSweep(env, i, j) && InSweep(env, i2, j2)
    requires CellCommand(env, i, j) == CellCommand(env, i2, j2)
    ensures i == i2 && j == j2
  {
    SameCommandSameCell(env, i, j, i2, j2);
  }

  lemma PosInjective(env: Env, i: int, j: int, i2: int, j2: int)
    requires InSweep(env, i, j) && InSweep(env, i2, j2) && Pos(env, i, j) == Pos(env, i2, j2)
    ensures i == i2 && j == j2
  {
    PosOrder(env, i, j, i2, j2);
    PosOrder(env, i2, j2, i, j);
  }

  /** The run of the cell at position `k`, if its directory exists. */
  function CellRun(env: Env, k: int): (runs: seq<seq<string>>)
    requires 0 <= k < Cells(env)
    ensures |runs| <= 1
  {
    CellAt(env, k);
    if Present(env, ModelOf(|env.models|, k)) then [CellCommand(env, SeqlenOf(|env.models|, k), ModelOf(|env.models|, k))] else []
  }

  /** The runs of the cells at positions `a` up to `b`, in order. */
  function RunsFrom(env: Env, a: int, b: int): seq<seq<string>>
    requires 0 <= a && b <= Cells(env)
    decreases b - a
  {
    if a >= b then [] else CellRun(env, a) + RunsFrom(env, a + 1, b)
  }

  /** The one cell at position `k` runs the benchmark at most once. */
  lemma CellRuns(env: Env, k: int)
    requires 0 <= k < Cells(env)
    ensures Runs(CellEvents(env, k)) == CellRun(env, k)
  {
    CellAt(env, k);
    var i, j := SeqlenOf(|env.models|, k), ModelOf(|env.models|, k);
    var rows := Filled(env, k + 1);
    var runs: seq<Event> := if Present(env, j) then [Invoke(CellCommand(env, i, j))] else [];
    RunsAppend(runs, [Persist(rows)]);
    assert Runs([Persist(rows)]) == [];
  }

  lemma {:induction false} EventsFromRunsFrom(env: Env, a: int, b: int)
    requires 0 <= a <= b <= Cells(env)
    ensures Runs(EventsFrom(env, a, b)) == RunsFrom(env, a, b)
    decreases b - a
  {
    if a < b {
      EventsFromRunsFrom(env, a + 1, b);
      RunsOfFirstCell(env, a, b);
    }
  }

  lemma RunsOfFirstCell(env: Env, a: int, b: int)
    requires 0 <= a < b <= Cells(env)
    ensures Runs(EventsFrom(env, a, b)) == CellRun(env, a) + Runs(EventsFrom(env, a + 1, b))
  {
    EventsFromFirst(env, a, b);
    CellRuns(env, a);
    RunsAppend(CellEvents(env, a), EventsFrom(env, a + 1, b));
  }

  /** The cell at position `k` runs the command of cell `(i, j)` only when
      the directory of model `j` exists, and does so when it is that cell. */
  lemma CellRunIff(env: Env, k: int, i: int, j: int)
    requires 0 <= k < Cells(env) && InSweep(env, i, j)
    ensures CellCommand(env, i, j) in CellRun(env, k) ==> Present(env, j)
    ensures Present(env, j) && k == Pos(env, i, j) ==> CellCommand(env, i, j) in CellRun(env, k)
  {
    CellAt(env, k);
    var i1, j1 := SeqlenOf(|env.models|, k), ModelOf(|env.models|, k);
    assert CellRun(env, k) == if Present(env, j1) then [CellCommand(env, i1, j1)] else [];
    if k == Pos(env, i, j) {
      PosInjective(env, i, j, i1, j1);
    } else if Present(env, j1) && CellCommand(env, i, j) == CellCommand(env, i1, j1) {
      SameCommandSameCell(env, i, j, i1, j1);
    }
  }

  lemma {:induction false} RunsFromIff(env: Env, a: int, b: int, i: int, j: int)
    requires 0 <= a <= b <= Cells(env) && InSweep(env, i, j)
    ensures CellCommand(env, i, j) in RunsFrom(env, a, b) ==> Present(env, j)
    ensures Present(env, j) && a <= Pos(env, i, j) < b ==> CellCommand(env, i, j) in RunsFrom(env, a, b)
    decreases b - a
  {
    if a < b {
      RunsFromIff(env, a + 1, b, i, j);
      CellRunIff(env, a, i, j);
      InAppend(CellRun(env, a), RunsFrom(env, a + 1, b), CellCommand(env, i, j));
    }
  }

  lemma InAppend<T>(x: seq<T>, y: seq<T>, e: T)
    ensures e in x + y <==> e in x || e in y
  {
  }

  /** The benchmark runs for a cell exactly when its model directory
      exists: a missing directory means no run for any seqlen. This holds
      whether or not a model or a seqlen is listed twice, since a command
      names its model. */
  lemma RunIffPresent(env: Env, i: int, j: int)
    requires InSweep(env, i, j)
    ensures CellCommand(env, i, j) in Runs(RunSweep(env).trace) <==> Present(env, j)
  {
    var first: seq<Event> := [Persist(Filled(env, 0))];
    RunsAppend(first, EventsFrom(env, 0, Cells(env)));
    assert Runs(first) == [];
    EventsFromRunsFrom(env, 0, Cells(env));
    RunsFromIff(env, 0, Cells(env), i, j);
    PosInSweep(env, i, j);
  }

  // ---------------------------------------------------------------------------
  // The final matrix and what each write shows
  // ---------------------------------------------------------------------------

  /** The command of a cell reads back as the benchmark of that cell's
      model directory and seqlen, pinned to the CPU core exactly when
      `taskset` was found and a core was given. */
  lemma CellCommandReads(env: Env, i: int, j: int)
    requires InSweep(env, i, j)
    ensures ParseCommandLine(CellCommand(env, i, j))
         == Some(Invocation(if env.tasksetFound then env.cpuCore else None, env.binary, ModelDir(env.root, env.models[j]), env.seqlens[i]))
  {
    ParseCommandLineInverse(env.binary, ModelDir(env.root, env.models[j]), env.seqlens[i], env.cpuCore, env.tasksetFound);
  }

  /** With the real extractor, a cell holds a value exactly when its model
      directory exists and the run's output matches the summary pattern
      somewhere; the value is a numeral, the `val` group of the last match. */
  lemma CellValueOfRun(env: Env, i: int, j: int)
    requires InSweep(env, i, j) && env.extract == Extract
    ensures var t := env.bench(i, j, CellCommand(env, i, j)).text;
      && (CellValue(env, i, j).None? <==> !Present(env, j) || forall p :: 0 <= p < |t| ==> MatchAt(t, p).None?)
      && (CellValue(env, i, j).Some? ==> IsNumeral(CellValue(env, i, j).value))
      && (forall p :: Present(env, j) && IsLastMatch(t, p) ==> CellValue(env, i, j) == Some(MatchAt(t, p).value.val))
  {
    var t := env.bench(i, j, CellCommand(env, i, j)).text;
    ExtractNumeral(t);
    forall p | Present(env, j) && IsLastMatch(t, p)
      ensures CellValue(env, i, j) == Some(MatchAt(t, p).value.val)
    {
      ExtractLast(t, p);
    }
  }

  /** Once the sweep is over, every cell holds its value: the last run's
      extracted value for a present model, nothing for a missing one. */
  lemma FinalCell(env: Env, i: int, j: int)
    requires Distinct(env.models) && InSweep(env, i, j)
    ensures RunSweep(env).rows[i].seqlen == env.seqlens[i]
    ensures forall m :: m in RunSweep(env).rows[i].values <==> m in env.models
    ensures RunSweep(env).rows[i].values[env.models[j]] == CellValue(env, i, j)
  {
    PosInSweep(env, i, j);
    FilledShape(env, Cells(env), i);
    FilledCell(env, Cells(env), i, j);
  }

  /** The extractor never reports the empty text, which the table could not
      tell from a missing value. */
  ghost predicate NonEmptyExtracts(env: Env) {
    forall t :: env.extract(t) != Some("")
  }

  /** What a reader of the table sees after `k` cells: every seqlen, and a
      value exactly for the cells done so far. */
  function Expected(env: Env, k: int): (recs: seq<Record>)
    ensures |recs| == |env.seqlens|
  {
    seq(|env.seqlens|, i requires 0 <= i < |env.seqlens| => ExpectedRecord(env, k, i))
  }

  function ExpectedRecord(env: Env, k: int, i: int): Record
    requires 0 <= i < |env.seqlens|
  {
    Record(env.seqlens[i], seq(|env.models|, j requires 0 <= j < |env.models| =>
      if Pos(env, i, j) < k then CellValue(env, i, j) else None))
  }

  lemma FilledNoEmptyValues(env: Env, k: int)
    requires Distinct(env.models) && NonEmptyExtracts(env) && 0 <= k <= Cells(env)
    ensures NoEmptyValues(Filled(env, k))
  {
    var rows := Filled(env, k);
    forall i, m | 0 <= i < |rows| && m in rows[i].values && rows[i].values[m].Some?
      ensures rows[i].values[m].value != ""
    {
      FilledShape(env, k, i);
      var j := IndexOf(env.models, m);
      FilledCell(env, k, i, j);
    }
  }

  lemma LookupFilled(env: Env, k: int, i: int)
    requires Distinct(env.models) && 0 <= k <= Cells(env) && 0 <= i < |env.seqlens|
    ensures Lookup(env.models, Filled(env, k)[i]) == ExpectedRecord(env, k, i)
  {
    var got, want := Lookup(env.models, Filled(env, k)[i]), ExpectedRecord(env, k, i);
    FilledShape(env, k, i);
    forall j | 0 <= j < |env.models| ensures got.cells[j] == want.cells[j] {
      FilledCell(env, k, i, j);
    }
    assert got.cells == want.cells;
  }

  /** Every write leaves a table from which a reader recovers, for the
      matrix after `k` cells, each seqlen and exactly the values of the
      cells done so far: an interrupted sweep keeps what it measured. */
  lemma SnapshotReads(env: Env, k: int)
    requires Distinct(env.models) && NonEmptyExtracts(env) && 0 <= k <= Cells(env)
    ensures ReadCsv(env.models, CsvRows(env.models, Filled(env, k))) == Some(Expected(env, k))
  {
    var rows := Filled(env, k);
    FilledNoEmptyValues(env, k);
    ReadCsvRows(env.models, rows);
    var got := seq(|rows|, i requires 0 <= i < |rows| => Lookup(env.models, rows[i]));
    forall i | 0 <= i < |rows| ensures got[i] == Expected(env, k)[i] {
      LookupFilled(env, k, i);
    }
    assert got == Expected(env, k);
  }

  // ---------------------------------------------------------------------------
  // Exit codes
  // ---------------------------------------------------------------------------

  /** Two benchmarks that print the same text, whatever their exit codes. */
  ghost predicate SameText(b1: (nat, nat, seq<string>) -> Output, b2: (nat, nat, seq<string>) -> Output) {
    forall i, j, argv :: b1(i, j, argv).text == b2(i, j, argv).text
  }

  /** A cell's value depends on the text its run prints, not on the exit
      code. */
  lemma CellValueSameText(env: Env, bench2: (nat, nat, seq<string>) -> Output, i: int, j: int)
    requires SameText(env.bench, bench2) && InSweep(env, i, j)
    ensures CellValue(env.(bench := bench2), i, j) == CellValue(env, i, j)
  {
    var argv := CellCommand(env, i, j);
    assert env.bench(i, j, argv).text == bench2(i, j, argv).text;
  }

  lemma {:induction false} FilledSameText(env: Env, bench2: (nat, nat, seq<string>) -> Output, k: int)
    requires SameText(env.bench, bench2) && 0 <= k <= Cells(env)
    ensures Filled(env.(bench := bench2), k) == Filled(env, k)
    decreases k
  {
    var env2 := env.(bench := bench2);
    if k == 0 {
      forall i | 0 <= i < |env.seqlens| ensures InitialRows(env2)[i] == InitialRows(env)[i] {
        assert InitialRow(env2, i) == InitialRow(env, i);
      }
      assert InitialRows(env2) == InitialRows(env);
    } else {
      CellAt(env, k - 1);
      var i, j := SeqlenOf(|env.models|, k - 1), ModelOf(|env.models|, k - 1);
      FilledSameText(env, bench2, k - 1);
      CellValueSameText(env, bench2, i, j);
    }
  }

  lemma {:induction false} EventsFromSameText(env: Env, bench2: (nat, nat, seq<string>) -> Output, a: int, b: int)
    requires SameText(env.bench, bench2) && 0 <= a && b <= Cells(env)
    ensures EventsFrom(env.(bench := bench2), a, b) == EventsFrom(env, a, b)
    decreases b - a
  {
    if a < b {
      EventsFromSameText(env, bench2, a + 1, b);
      CellEventsSameText(env, bench2, a);
      EventsFromFirst(env, a, b);
      EventsFromFirst(env.(bench := bench2), a, b);
    }
  }

  lemma CellEventsSameText(env: Env, bench2: (nat, nat, seq<string>) -> Output, k: int)
    requires SameText(env.bench, bench2) && 0 <= k < Cells(env)
    ensures CellEvents(env.(bench := bench2), k) == CellEvents(env, k)
  {
    CellAt(env, k);
    FilledSameText(env, bench2, k + 1);
  }

  /** A failing exit code only prints a warning: a benchmark that prints
      the same output with any other exit codes leads to the same runs, the
      same writes and the same final matrix. */
  lemma ExitCodeIgnored(env: Env, bench2: (nat, nat, seq<string>) -> Output)
    requires SameText(env.bench, bench2)
    ensures RunSweep(env.(bench := bench2)) == RunSweep(env)
  {
    var env2 := env.(bench := bench2);
    FilledSameText(env, bench2, 0);
    FilledSameText(env, bench2, Cells(env));
    EventsFromSameText(env, bench2, 0, Cells(env));
    assert RunSweep(env2).rows == RunSweep(env).rows;
    assert RunSweep(env2).trace == RunSweep(env).trace;
  }
}

=== FILE: throughput.dfy ===
/** The throughput extractor of collect_genai_tokens_per_s.py: the pattern
    `_THROUGHPUT_RE` and `parse_throughput_tokens_per_s`, which reports the
    numeral of the last `Throughput: <num>[ ± <num>] tokens/s` in a text. */
module Throughput {
  import opened Wrappers
  import opened Decimal

  const Label: string := "Throughput:"
  const Unit: string := "tokens/s"
  const PlusMinus: char := '±'

  /** Python's `\s` in a str pattern: the characters `str.isspace` accepts,
      U+0009..U+000D, U+001C..U+001F, the space, U+0085, U+00A0, U+1680,
      U+2000..U+200A, U+2028, U+2029, U+202F, U+205F and U+3000. */
  predicate IsSpace(c: char) {
    || '\t' <= c <= '\r'
    || '\U{1c}' <= c <= ' '
    || c == '\U{85}' || c == '\U{a0}' || c == '\U{1680}'
    || '\U{2000}' <= c <= '\U{200a}'
    || c == '\U{2028}' || c == '\U{2029}' || c == '\U{202f}' || c == '\U{205f}' || c == '\U{3000}'
  }

  predicate IsSign(c: char) {
    c == '+' || c == '-'
  }

  /** The characters a numeral of the pattern can contain. */
  predicate IsNumeralChar(c: char) {
    IsDigit(c) || IsSign(c) || c == '.' || c == 'e' || c == 'E'
  }

  /** `w` occurs in `t` at position `p`. */
  predicate HasAt(t: string, p: int, w: string) {
    0 <= p && p + |w| <= |t| && t[p..p + |w|] == w
  }

  // ---------------------------------------------------------------------------
  // The numeral grammar  [+-]?(\d+(\.\d*)?|\.\d+)([eE][+-]?\d+)?
  // ---------------------------------------------------------------------------

  predicate IsSignPart(s: string) {
    |s| == 0 || (|s| == 1 && IsSign(s[0]))
  }

  /** `\d+(\.\d*)?|\.\d+`: digits, or a single point with digits on at least
      one side of it. */
  predicate IsMantissa(s: string) {
    || (|s| > 0 && AllDigits(s))
    || (|s| > 1 && exists k :: 0 <= k < |s| && s[k] == '.' && AllDigits(s[..k]) && AllDigits(s[k + 1..]))
  }

  /** `([eE][+-]?\d+)?` */
  predicate IsExponent(s: string) {
    |s| == 0 || (|s| > 1 && (s[0] == 'e' || s[0] == 'E') && IsIntegerText(s[1..]))
  }

  /** The texts the `val` and `std` groups of the pattern match. */
  ghost predicate IsNumeral(s: string) {
    exists a, b :: 0 <= a <= b <= |s| && IsSignPart(s[..a]) && IsMantissa(s[a..b]) && IsExponent(s[b..])
  }

  lemma NumeralChars(s: string)
    requires IsNumeral(s)
    ensures |s| > 0
    ensures forall k :: 0 <= k < |s| ==> IsNumeralChar(s[k])
  {
    var a, b :| 0 <= a <= b <= |s| && IsSignPart(s[..a]) && IsMantissa(s[a..b]) && IsExponent(s[b..]);
    forall k | 0 <= k < |s| ensures IsNumeralChar(s[k]) {
      if k < a {
        assert s[..a][k] == s[k];
      } else if k < b {
        var m := s[a..b];
        assert m[k - a] == s[k];
        if !(|m| > 0 && AllDigits(m)) {
          var j :| 0 <= j < |m| && m[j] == '.' && AllDigits(m[..j]) && AllDigits(m[j + 1..]);
          if k - a < j {
            assert m[..j][k - a] == s[k];
          } else if k - a > j {
            assert m[j + 1..][k - a - j - 1] == s[k];
          }
        }
      } else {
        var x := s[b..];
        assert x[k - b] == s[k];
        if k - b > 0 {
          var u := x[1..];
          assert u[k - b - 1] == s[k];
          if !(|u| > 0 && AllDigits(u)) && k - b > 1 {
            assert u[1..][k - b - 2] == s[k];
          }
        }
      }
    }
  }

  // ---------------------------------------------------------------------------
  // The greedy scanner
  // ---------------------------------------------------------------------------

  /** `\s*` from position `p`: the end of the run of whitespace there. */
  function SkipSpaces(t: string, p: nat): (q: nat)
    requires p <= |t|
    ensures p <= q <= |t|
    ensures forall k {:trigger IsSpace(t[k])} :: p <= k < q ==> IsSpace(t[k])
    ensures q < |t| ==> !IsSpace(t[q])
    decreases |t| - p
  {
    if p < |t| && IsSpace(t[p]) then SkipSpaces(t, p + 1) else p
  }

  /** How far a scan reaches: it fails, or it ends just before `end`. */
  datatype Reach = Fail | EndsAt(end: nat)

  /** `\d*` from position `p`: the end of the run of digits there. */
  function SkipDigits(t: string, p: nat): (q: nat)
    requires p <= |t|
    ensures p <= q <= |t|
    ensures forall k {:trigger IsDigit(t[k])} :: p <= k < q ==> IsDigit(t[k])
    ensures q < |t| ==> !IsDigit(t[q])
    decreases |t| - p
  {
    if p < |t| && IsDigit(t[p]) then SkipDigits(t, p + 1) else p
  }

  /** A run of digits ends exactly where the first non-digit is. */
  lemma SkipDigitsTo(t: string, p: nat, q: nat)
    requires p <= q <= |t|
    requires AllDigits(t[p..q])
    requires q < |t| ==> !IsDigit(t[q])
    ensures SkipDigits(t, p) == q
  {
    forall k | p <= k < q ensures IsDigit(t[k]) {
      assert t[p..q][k - p] == t[k];
    }
  }

  /** The mantissa `\d+(\.\d*)?|\.\d+` at `q`, as long as possible. */
  function MantissaEnd(t: string, q: nat): (r: Reach)
    requires q <= |t|
    ensures r.EndsAt? ==> q < r.end <= |t|
    ensures r.EndsAt? ==> forall k {:trigger IsDigit(t[k])} :: q <= k < r.end ==> IsDigit(t[k]) || t[k] == '.'
  {
    if q < |t| && IsDigit(t[q]) then
      var d := SkipDigits(t, q);
      if d < |t| && t[d] == '.' then EndsAt(SkipDigits(t, d + 1)) else EndsAt(d)
    else if q + 1 < |t| && t[q] == '.' && IsDigit(t[q + 1]) then
      EndsAt(SkipDigits(t, q + 1))
    else
      Fail
  }

  /** The optional exponent `([eE][+-]?\d+)?` at `e`: its end, or `e` when
      no exponent follows. */
  function ExponentEnd(t: string, e: nat): (f: nat)
    requires e <= |t|
    ensures e <= f <= |t|
    ensures forall k {:trigger IsNumeralChar(t[k])} :: e <= k < f ==> IsNumeralChar(t[k])
  {
    if e < |t| && (t[e] == 'e' || t[e] == 'E') then
      var s := if e + 1 < |t| && IsSign(t[e + 1]) then e + 2 else e + 1;
      if s < |t| && IsDigit(t[s]) then SkipDigits(t, s) else e
    else
      e
  }

  /** The numeral at `p`, as the pattern's greedy quantifiers match it. */
  function ScanNumeral(t: string, p: nat): (r: Reach)
    requires p <= |t|
    ensures r.EndsAt? ==> p < r.end <= |t|
    ensures r.EndsAt? ==> forall k {:trigger IsNumeralChar(t[k])} :: p <= k < r.end ==> IsNumeralChar(t[k])
  {
    var q := if p < |t| && IsSign(t[p]) then p + 1 else p;
    match MantissaEnd(t, q)
    case Fail => Fail
    case EndsAt(m) => EndsAt(ExponentEnd(t, m))
  }

  // ---------------------------------------------------------------------------
  // The scanner recognises exactly the numeral grammar
  // ---------------------------------------------------------------------------

  lemma MantissaEndSound(t: string, q: nat)
    requires q <= |t|
    ensures MantissaEnd(t, q).EndsAt? ==> IsMantissa(t[q..MantissaEnd(t, q).end])
  {
    if q < |t| && IsDigit(t[q]) {
      var d := SkipDigits(t, q);
      DigitRun(t, q);
      if d < |t| && t[d] == '.' {
        var f := SkipDigits(t, d + 1);
        DigitRun(t, d + 1);
        PointMantissa(t, q, d, f);
      }
    } else if q + 1 < |t| && t[q] == '.' && IsDigit(t[q + 1]) {
      var f := SkipDigits(t, q + 1);
      DigitRun(t, q + 1);
      PointMantissa(t, q, q, f);
    }
  }

  /** The digits `SkipDigits` passes over. */
  lemma DigitRun(t: string, p: nat)
    requires p <= |t|
    ensures AllDigits(t[p..SkipDigits(t, p)])
  {
    var q := SkipDigits(t, p);
    forall k | 0 <= k < q - p ensures IsDigit(t[p..q][k]) {
      assert t[p..q][k] == t[p + k];
    }
  }

  /** Digits, a point at `d`, digits: a mantissa when it is longer than the point. */
  lemma PointMantissa(t: string, q: nat, d: nat, f: nat)
    requires q <= d < f <= |t| && t[d] == '.' && f - q > 1
    requires AllDigits(t[q..d]) && AllDigits(t[d + 1..f])
    ensures IsMantissa(t[q..f])
  {
    var m := t[q..f];
    assert m[d - q] == '.' && m[..d - q] == t[q..d] && m[d - q + 1..] == t[d + 1..f];
  }

  lemma ExponentEndSound(t: string, e: nat)
    requires e <= |t|
    ensures IsExponent(t[e..ExponentEnd(t, e)])
  {
    if e < |t| && (t[e] == 'e' || t[e] == 'E') {
      var s := if e + 1 < |t| && IsSign(t[e + 1]) then e + 2 else e + 1;
      if s < |t| && IsDigit(t[s]) {
        var f := SkipDigits(t, s);
        assert t[e..f][1..] == t[e + 1..f];
        assert s == e + 2 ==> t[e + 1..f][1..] == t[s..f];
      }
    }
  }

  /** Whatever the scanner accepts is a numeral of the grammar. */
  lemma ScanNumeralSound(t: string, p: nat)
    requires p <= |t|
    ensures ScanNumeral(t, p).EndsAt? ==> IsNumeral(t[p..ScanNumeral(t, p).end])
  {
    var q := if p < |t| && IsSign(t[p]) then p + 1 else p;
    if MantissaEnd(t, q).EndsAt? {
      var m := MantissaEnd(t, q).end;
      var f := ExponentEnd(t, m);
      MantissaEndSound(t, q);
      ExponentEndSound(t, m);
      assert IsSignPart(t[p..q]) by {
        if q == p + 1 {
          assert t[p..q][0] == t[p];
        }
      }
      NumeralOfParts(t, p, q, m, f);
    }
  }

  /** Adjacent sign, mantissa and exponent make a numeral. */
  lemma NumeralOfParts(t: string, p: nat, q: nat, m: nat, f: nat)
    requires p <= q <= m <= f <= |t|
    requires IsSignPart(t[p..q]) && IsMantissa(t[q..m]) && IsExponent(t[m..f])
    ensures IsNumeral(t[p..f])
  {
    var s := t[p..f];
    var a, b := q - p, m - p;
    SliceOfSlice(t, p, f, 0, a);
    SliceOfSlice(t, p, f, a, b);
    SliceOfSlice(t, p, f, b, |s|);
    assert s[..a] == s[0..a] && s[b..] == s[b..|s|];
    assert 0 <= a <= b <= |s| && IsSignPart(s[..a]) && IsMantissa(s[a..b]) && IsExponent(s[b..]);
  }

  lemma SliceOfSlice(t: string, p: nat, f: nat, i: nat, j: nat)
    requires p <= f <= |t| && i <= j <= f - p
    ensures t[p..f][i..j] == t[p + i..p + j]
  {
    forall k | 0 <= k < j - i ensures t[p..f][i..j][k] == t[p + i..p + j][k] {
      assert t[p..f][i..j][k] == t[p..f][i + k] == t[p + i + k];
    }
  }

  lemma CharOfOccurrence(t: string, p: nat, w: string, k: nat)
    requires HasAt(t, p, w) && k < |w|
    ensures t[p + k] == w[k]
  {
    assert t[p..p + |w|][k] == t[p + k];
  }

  /** A slice occurs where it was cut. */
  lemma SliceHasAt(t: string, p: nat, q: nat)
    requires p <= q <= |t|
    ensures HasAt(t, p, t[p..q])
  {
  }

  lemma SliceOfOccurrence(t: string, p: nat, w: string, i: nat, j: nat)
    requires HasAt(t, p, w) && i <= j <= |w|
    ensures HasAt(t, p + i, w[i..j])
  {
    forall k | 0 <= k < j - i ensures t[p + i..p + j][k] == w[i..j][k] {
      CharOfOccurrence(t, p, w, i + k);
    }
  }

  /** A numeral followed by a character that cannot continue it is scanned
      exactly: the greedy scanner stops at its end. */
  lemma ScanNumeralExact(t: string, p: nat, s: string)
    requires HasAt(t, p, s) && IsNumeral(s)
    requires p + |s| < |t| ==> !IsNumeralChar(t[p + |s|])
    ensures ScanNumeral(t, p) == EndsAt(p + |s|)
  {
    var a, b :| 0 <= a <= b <= |s| && IsSignPart(s[..a]) && IsMantissa(s[a..b]) && IsExponent(s[b..]);
    ScanNumeralParts(t, p, s, a, b);
  }

  lemma ScanNumeralParts(t: string, p: nat, s: string, a: nat, b: nat)
    requires HasAt(t, p, s)
    requires a <= b <= |s| && IsSignPart(s[..a]) && IsMantissa(s[a..b]) && IsExponent(s[b..])
    requires p + |s| < |t| ==> !IsNumeralChar(t[p + |s|])
    ensures ScanNumeral(t, p) == EndsAt(p + |s|)
  {
    SignExact(t, p, s, a, b);
    MantissaPartExact(t, p, s, a, b);
    ExponentPartExact(t, p, s, b);
    ScanNumeralOf(t, p, p + b, p + |s|);
  }

  lemma ExponentPartExact(t: string, p: nat, s: string, b: nat)
    requires HasAt(t, p, s)
    requires b <= |s| && IsExponent(s[b..])
    requires p + |s| < |t| ==> !IsNumeralChar(t[p + |s|])
    ensures ExponentEnd(t, p + b) == p + |s|
  {
    var x := s[b..];
    SliceOfOccurrence(t, p, s, b, |s|);
    assert s[b..|s|] == x;
    assert p + b + |x| == p + |s|;
    ExponentExact(t, p + b, x);
  }

  /** The mantissa of an occurrence is scanned exactly: it is followed by
      the exponent's `e`, or by whatever stops the whole numeral. */
  lemma MantissaPartExact(t: string, p: nat, s: string, a: nat, b: nat)
    requires HasAt(t, p, s)
    requires a <= b <= |s| && IsMantissa(s[a..b]) && IsExponent(s[b..])
    requires p + |s| < |t| ==> !IsNumeralChar(t[p + |s|])
    ensures MantissaEnd(t, p + a) == EndsAt(p + b)
  {
    SliceOfOccurrence(t, p, s, a, b);
    if b < |s| {
      assert s[b..][0] == s[b];
      CharOfOccurrence(t, p, s, b);
      assert t[p + b] == 'e' || t[p + b] == 'E';
    }
    assert p + a + |s[a..b]| == p + b;
    MantissaExact(t, p + a, s[a..b]);
  }

  lemma ScanNumeralOf(t: string, p: nat, m: nat, f: nat)
    requires p <= |t| && m <= |t|
    requires MantissaEnd(t, if p < |t| && IsSign(t[p]) then p + 1 else p) == EndsAt(m)
    requires ExponentEnd(t, m) == f
    ensures ScanNumeral(t, p) == EndsAt(f)
  {
  }

  /** The optional sign is taken exactly when the numeral has one. */
  lemma SignExact(t: string, p: nat, s: string, a: nat, b: nat)
    requires HasAt(t, p, s)
    requires a <= b <= |s| && IsSignPart(s[..a]) && IsMantissa(s[a..b])
    ensures p < |t| && (if IsSign(t[p]) then p + 1 else p) == p + a
  {
    var m := s[a..b];
    assert m[0] == s[a];
    assert IsDigit(m[0]) || m[0] == '.' by {
      if !(|m| > 0 && AllDigits(m)) {
        var j :| 0 <= j < |m| && m[j] == '.' && AllDigits(m[..j]) && AllDigits(m[j + 1..]);
        if j > 0 {
          assert m[..j][0] == m[0];
        }
      }
    }
    CharOfOccurrence(t, p, s, 0);
    if a == 1 {
      assert s[..a][0] == s[0];
    }
  }

  lemma MantissaExact(t: string, q: nat, m: string)
    requires HasAt(t, q, m) && IsMantissa(m)
    requires q + |m| < |t| ==> !IsDigit(t[q + |m|]) && t[q + |m|] != '.'
    ensures MantissaEnd(t, q) == EndsAt(q + |m|)
  {
    if |m| > 0 && AllDigits(m) {
      MantissaExactDigits(t, q, m);
    } else {
      var j :| 0 <= j < |m| && m[j] == '.' && AllDigits(m[..j]) && AllDigits(m[j + 1..]);
      MantissaExactPoint(t, q, m, j);
    }
  }

  lemma MantissaExactDigits(t: string, q: nat, m: string)
    requires HasAt(t, q, m) && |m| > 0 && AllDigits(m)
    requires q + |m| < |t| ==> !IsDigit(t[q + |m|]) && t[q + |m|] != '.'
    ensures MantissaEnd(t, q) == EndsAt(q + |m|)
  {
    CharOfOccurrence(t, q, m, 0);
    assert t[q..q + |m|] == m;
    SkipDigitsTo(t, q, q + |m|);
    assert IsDigit(t[q]);
  }

  lemma MantissaExactPoint(t: string, q: nat, m: string, j: nat)
    requires HasAt(t, q, m) && |m| > 1
    requires j < |m| && m[j] == '.' && AllDigits(m[..j]) && AllDigits(m[j + 1..])
    requires q + |m| < |t| ==> !IsDigit(t[q + |m|]) && t[q + |m|] != '.'
    ensures MantissaEnd(t, q) == EndsAt(q + |m|)
  {
    CharOfOccurrence(t, q, m, j);
    SliceOfOccurrence(t, q, m, j + 1, |m|);
    assert t[q + j + 1..q + |m|] == m[j + 1..];
    SkipDigitsTo(t, q + j + 1, q + |m|);
    if j > 0 {
      CharOfOccurrence(t, q, m, 0);
      assert m[..j][0] == m[0];
      SliceOfOccurrence(t, q, m, 0, j);
      assert t[q..q + j] == m[..j];
      SkipDigitsTo(t, q, q + j);
      assert IsDigit(t[q]);
      assert SkipDigits(t, q) == q + j;
    } else {
      CharOfOccurrence(t, q, m, 1);
      assert m[j + 1..][0] == m[1];
      assert !IsDigit(t[q]) && t[q] == '.' && IsDigit(t[q + 1]);
    }
  }

  lemma ExponentExact(t: string, e: nat, x: string)
    requires HasAt(t, e, x) && IsExponent(x)
    requires e + |x| < |t| ==> !IsNumeralChar(t[e + |x|])
    ensures ExponentEnd(t, e) == e + |x|
  {
    if |x| > 0 {
      CharOfOccurrence(t, e, x, 0);
      CharOfOccurrence(t, e, x, 1);
      var u := x[1..];
      assert u[0] == x[1];
      if |u| > 0 && AllDigits(u) {
        SliceOfOccurrence(t, e, x, 1, |x|);
        assert t[e + 1..e + |x|] == u;
        SkipDigitsTo(t, e + 1, e + |x|);
      } else {
        assert u[1..][0] == x[2];
        CharOfOccurrence(t, e, x, 2);
        SliceOfOccurrence(t, e, x, 2, |x|);
        assert t[e + 2..e + |x|] == u[1..];
        SkipDigitsTo(t, e + 2, e + |x|);
      }
    }
  }

  // ---------------------------------------------------------------------------
  // One match of the pattern
  // ---------------------------------------------------------------------------

  /** A match of `_THROUGHPUT_RE`: its span and its two groups. */
  datatype Match = Match(start: nat, end: nat, val: string, std: Option<string>)

  lemma FixedSpanWithoutT(t: string, p: nat, w: string, from: nat)
    requires HasAt(t, p, w)
    requires forall k :: from <= k < |w| ==> w[k] != 'T'
    ensures forall k :: p + from <= k < p + |w| ==> t[k] != 'T'
  {
    forall k | p + from <= k < p + |w| ensures t[k] != 'T' {
      assert t[p..p + |w|][k - p] == t[k];
    }
  }

  /** `\s*tokens/s` from position `p`: the end of the unit, if it follows. */
  function UnitEnd(t: string, p: nat): (r: Reach)
    requires p <= |t|
    ensures r.EndsAt? ==> p < r.end <= |t| && HasAt(t, r.end - |Unit|, Unit)
  {
    var c := SkipSpaces(t, p);
    if HasAt(t, c, Unit) then EndsAt(c + |Unit|) else Fail
  }

  /** The spans a ` ± <std> tokens/s` tail yields: where the `std` numeral
      starts and ends, and where the unit ends. */
  datatype StdSpan = NoStd | Std(d: nat, e: nat, z: nat)

  /** `\s*±\s*<num>\s*tokens/s` from position `p`: the span of the `std`
      numeral and the end of the unit, if they follow. */
  function StdEnd(t: string, p: nat): (r: StdSpan)
    requires p <= |t|
    ensures r.Std? ==> p < r.d < r.e < r.z <= |t|
  {
    var c := SkipSpaces(t, p);
    if c < |t| && t[c] == PlusMinus then StdAfterSign(t, c + 1) else NoStd
  }

  /** `\s*<num>\s*tokens/s` from position `q`, just after the `±`. */
  function StdAfterSign(t: string, q: nat): (r: StdSpan)
    requires q <= |t|
    ensures r.Std? ==> q <= r.d < r.e < r.z <= |t|
  {
    var d := SkipSpaces(t, q);
    match ScanNumeral(t, d)
    case Fail => NoStd
    case EndsAt(e) =>
      match UnitEnd(t, e)
      case Fail => NoStd
      case EndsAt(z) => Std(d, e, z)
  }

  /** The pattern matched at position `i` (Python's `re.match` at `i`), or
      `None`. Backtracking cannot change the outcome of the greedy scan:
      every shorter numeral would be followed by a numeral character, which
      neither `\s`, `±` nor the `t` of `tokens/s` can match; and giving up
      a `± std` part that matched leaves the `±` where `tokens/s` must be. */
  function MatchAt(t: string, i: nat): (r: Option<Match>)
    requires i <= |t|
    ensures r.Some? ==> r.value.start == i && i < r.value.end <= |t|
    ensures r.Some? ==> t[i] == 'T'
  {
    if !HasAt(t, i, Label) then None
    else
      var a := SkipSpaces(t, i + |Label|);
      match ScanNumeral(t, a)
      case Fail => None
      case EndsAt(b) =>
        CharOfOccurrence(t, i, Label, 0);
        match StdEnd(t, b)
        case Std(d, e, z) => Some(Match(i, z, t[a..b], Some(t[d..e])))
        case NoStd =>
          match UnitEnd(t, b)
          case EndsAt(z) => Some(Match(i, z, t[a..b], None))
          case Fail => None
  }

  /** `StdEnd` unfolded, given what each of its steps yields: a rewriting
      step for the layout proof, not a statement of meaning. */
  lemma StdEndOfScan(t: string, p: nat, c: nat, d: nat, e: nat, z: nat)
    requires p <= |t| && SkipSpaces(t, p) == c && c < |t| && t[c] == PlusMinus && SkipSpaces(t, c + 1) == d
    requires ScanNumeral(t, d) == EndsAt(e) && UnitEnd(t, e) == EndsAt(z)
    ensures StdEnd(t, p) == Std(d, e, z)
  {
    assert StdAfterSign(t, c + 1) == Std(d, e, z);
  }

  /** `MatchAt` unfolded, for a match with a ` ± <std>` part: a rewriting
      step for the layout proof (`MatchAtLayout` states the meaning). */
  lemma MatchAtWithStd(t: string, i: nat, a: nat, b: nat, d: nat, e: nat, z: nat, v: string, std: Option<string>)
    requires HasAt(t, i, Label) && SkipSpaces(t, i + |Label|) == a && ScanNumeral(t, a) == EndsAt(b)
    requires StdEnd(t, b) == Std(d, e, z) && t[a..b] == v && std.Some? && t[d..e] == std.value
    ensures MatchAt(t, i) == Some(Match(i, z, v, std))
  {
  }

  /** `MatchAt` unfolded, for a match without a ` ± <std>` part: a
      rewriting step for the layout proof (`MatchAtLayout` states the
      meaning). */
  lemma MatchAtWithoutStd(t: string, i: nat, a: nat, b: nat, z: nat, v: string, std: Option<string>)
    requires HasAt(t, i, Label) && SkipSpaces(t, i + |Label|) == a && ScanNumeral(t, a) == EndsAt(b)
    requires StdEnd(t, b).NoStd? && UnitEnd(t, b) == EndsAt(z) && t[a..b] == v && std.None?
    ensures MatchAt(t, i) == Some(Match(i, z, v, std))
  {
  }

  lemma LabelWithoutT(t: string, i: nat)
    requires HasAt(t, i, Label)
    ensures forall k :: i < k < i + |Label| ==> t[k] != 'T'
  {
    forall k | i < k < i + |Label| ensures t[k] != 'T' {
      CharOfOccurrence(t, i, Label, k - i);
    }
  }

  lemma SpacesWithoutT(t: string, p: nat)
    requires p <= |t|
    ensures forall k :: p <= k < SkipSpaces(t, p) ==> t[k] != 'T'
  {
    forall k | p <= k < SkipSpaces(t, p) ensures t[k] != 'T' {
      assert IsSpace(t[k]);
    }
  }

  lemma NumeralWithoutT(t: string, p: nat)
    requires p <= |t| && ScanNumeral(t, p).EndsAt?
    ensures forall k :: p <= k < ScanNumeral(t, p).end ==> t[k] != 'T'
  {
    forall k | p <= k < ScanNumeral(t, p).end ensures t[k] != 'T' {
      assert IsNumeralChar(t[k]);
    }
  }

  lemma UnitEndWithoutT(t: string, p: nat)
    requires p <= |t| && UnitEnd(t, p).EndsAt?
    ensures forall k :: p <= k < UnitEnd(t, p).end ==> t[k] != 'T'
  {
    var c := SkipSpaces(t, p);
    SpacesWithoutT(t, p);
    FixedSpanWithoutT(t, c, Unit, 0);
  }

  lemma StdEndWithoutT(t: string, p: nat)
    requires p <= |t| && StdEnd(t, p).Std?
    ensures forall k :: p <= k < StdEnd(t, p).z ==> t[k] != 'T'
  {
    var c := SkipSpaces(t, p);
    assert c < |t| && t[c] == PlusMinus;
    var d := SkipSpaces(t, c + 1);
    assert StdAfterSign(t, c + 1).Std?;
    assert ScanNumeral(t, d).EndsAt?;
    var e := ScanNumeral(t, d).end;
    assert UnitEnd(t, e).EndsAt?;
    var z := UnitEnd(t, e).end;
    StdEndOfScan(t, p, c, d, e, z);
    SpacesWithoutT(t, p);
    SpacesWithoutT(t, c + 1);
    NumeralWithoutT(t, d);
    UnitEndWithoutT(t, e);
    forall k | p <= k < z ensures t[k] != 'T' {
      if k < c {
      } else if k == c {
      } else if k < d {
      } else if k < e {
      }
    }
  }

  /** Inside a match the only `T` is the first character of the label, so
      no match can begin strictly inside another. */
  lemma MatchWithoutT(t: string, i: nat)
    requires i <= |t| && MatchAt(t, i).Some?
    ensures forall k :: i < k < MatchAt(t, i).value.end ==> t[k] != 'T'
  {
    var a := SkipSpaces(t, i + |Label|);
    var b := ScanNumeral(t, a).end;
    var z := MatchAt(t, i).value.end;
    LabelWithoutT(t, i);
    SpacesWithoutT(t, i + |Label|);
    NumeralWithoutT(t, a);
    if StdEnd(t, b).Std? {
      assert z == StdEnd(t, b).z;
      StdEndWithoutT(t, b);
    } else {
      assert z == UnitEnd(t, b).end;
      UnitEndWithoutT(t, b);
    }
    forall k | i < k < z ensures t[k] != 'T' {
      if k < i + |Label| {
      } else if k < a {
      } else if k < b {
      }
    }
  }

  /** Both groups of a match are numerals of the grammar. */
  lemma MatchAtNumerals(t: string, i: nat)
    requires i <= |t| && MatchAt(t, i).Some?
    ensures IsNumeral(MatchAt(t, i).value.val)
    ensures MatchAt(t, i).value.std.Some? ==> IsNumeral(MatchAt(t, i).value.std.value)
  {
    var a := SkipSpaces(t, i + |Label|);
    ScanNumeralSound(t, a);
    var b := ScanNumeral(t, a).end;
    if StdEnd(t, b).Std? {
      ScanNumeralSound(t, StdEnd(t, b).d);
    }
  }

  // ---------------------------------------------------------------------------
  // The pattern as a layout of the text
  // ---------------------------------------------------------------------------

  /** `\s*` spanning exactly `t[p..q]`. */
  ghost predicate AllSpaces(t: string, p: int, q: int)
    decreases q - p
  {
    0 <= p <= q <= |t| && (p < q ==> IsSpace(t[p]) && AllSpaces(t, p + 1, q))
  }

  /** `\s*tokens/s` spanning exactly `t[p..z]`. */
  ghost predicate UnitTail(t: string, p: int, z: int) {
    exists c :: AllSpaces(t, p, c) && HasAt(t, c, Unit) && z == c + |Unit|
  }

  /** `\s*±\s*<s>\s*tokens/s` spanning exactly `t[p..z]`, `s` a numeral. */
  ghost predicate StdTail(t: string, p: int, s: string, z: int) {
    exists c, d :: && AllSpaces(t, p, c) && HasAt(t, c, [PlusMinus]) && AllSpaces(t, c + 1, d)
                   && HasAt(t, d, s) && IsNumeral(s) && UnitTail(t, d + |s|, z)
  }

  /** The whole pattern spanning exactly `t[i..z]`, with its `val` group
      matching `v` and its optional `std` group matching `std`. */
  ghost predicate PatternAt(t: string, i: int, z: int, v: string, std: Option<string>) {
    exists a :: && HasAt(t, i, Label) && AllSpaces(t, i + |Label|, a) && HasAt(t, a, v) && IsNumeral(v)
                && match std
                   case None => UnitTail(t, a + |v|, z)
                   case Some(s) => StdTail(t, a + |v|, s, z)
  }

  /** The match at `i` is exactly the layout of the pattern there: the
      label, spaces, the `val` numeral, an optional `± std` part and the
      unit. As the layout can be read only one way, the greedy scan is no
      less general than the backtracking matcher. */
  lemma MatchAtLayout(t: string, i: nat, z: nat, v: string, std: Option<string>)
    requires i <= |t|
    ensures MatchAt(t, i) == Some(Match(i, z, v, std)) <==> PatternAt(t, i, z, v, std)
  {
    if MatchAt(t, i) == Some(Match(i, z, v, std)) {
      MatchAtIsPattern(t, i);
    }
    if PatternAt(t, i, z, v, std) {
      PatternIsMatchAt(t, i, z, v, std);
    }
  }

  /** A match lays the pattern out over the text it spans. */
  lemma MatchAtIsPattern(t: string, i: nat)
    requires i <= |t| && MatchAt(t, i).Some?
    ensures var m := MatchAt(t, i).value; PatternAt(t, i, m.end, m.val, m.std)
  {
    var m := MatchAt(t, i).value;
    var a, b := MatchAtHead(t, i);
    MatchAtTail(t, i, a, b);
    PatternFrom(t, i, a, b, m.end, m.val, m.std);
  }

  /** The label, the spaces and the `val` numeral of a match. */
  lemma MatchAtHead(t: string, i: nat) returns (a: nat, b: nat)
    requires i <= |t| && MatchAt(t, i).Some?
    ensures var v := MatchAt(t, i).value.val;
      && HasAt(t, i, Label) && SkipSpaces(t, i + |Label|) == a && AllSpaces(t, i + |Label|, a)
      && ScanNumeral(t, a) == EndsAt(b) && HasAt(t, a, v) && IsNumeral(v) && b == a + |v|
  {
    a := SkipSpaces(t, i + |Label|);
    b := ScanNumeral(t, a).end;
    SpacesSkipped(t, i + |Label|);
    ScanNumeralSound(t, a);
    SliceHasAt(t, a, b);
  }

  /** The ` ± <std>` part, if any, and the unit of a match. */
  lemma MatchAtTail(t: string, i: nat, a: nat, b: nat)
    requires i <= |t| && MatchAt(t, i).Some?
    requires HasAt(t, i, Label) && SkipSpaces(t, i + |Label|) == a && ScanNumeral(t, a) == EndsAt(b)
    ensures var m := MatchAt(t, i).value;
      && (m.std.None? ==> UnitTail(t, b, m.end))
      && (m.std.Some? ==> StdTail(t, b, m.std.value, m.end))
  {
    var m := MatchAt(t, i).value;
    if StdEnd(t, b).Std? {
      TailOfStdEnd(t, b);
    } else {
      UnitEndIff(t, b, m.end);
    }
  }

  /** The layout, given where the `val` numeral starts and ends. */
  lemma PatternFrom(t: string, i: nat, a: nat, b: nat, z: nat, v: string, std: Option<string>)
    requires HasAt(t, i, Label) && AllSpaces(t, i + |Label|, a) && HasAt(t, a, v) && IsNumeral(v) && b == a + |v|
    requires std.None? ==> UnitTail(t, b, z)
    requires std.Some? ==> StdTail(t, b, std.value, z)
    ensures PatternAt(t, i, z, v, std)
  {
  }

  /** Where the pattern is laid out, the scan finds exactly that match. */
  lemma PatternIsMatchAt(t: string, i: nat, z: nat, v: string, std: Option<string>)
    requires i <= |t| && PatternAt(t, i, z, v, std)
    ensures MatchAt(t, i) == Some(Match(i, z, v, std))
  {
    var a :| && HasAt(t, i, Label) && AllSpaces(t, i + |Label|, a) && HasAt(t, a, v) && IsNumeral(v)
             && match std
                case None => UnitTail(t, a + |v|, z)
                case Some(s) => StdTail(t, a + |v|, s, z);
    SpacesBeforeNumeral(t, i + |Label|, a, v);
    match std {
      case None => MatchWithoutStdFrom(t, i, a, z, v);
      case Some(s) => MatchWithStdFrom(t, i, a, z, v, s);
    }
  }

  /** The layout without a ` ± <std>` part, from the start of the `val` numeral. */
  lemma MatchWithoutStdFrom(t: string, i: nat, a: nat, z: nat, v: string)
    requires HasAt(t, i, Label) && SkipSpaces(t, i + |Label|) == a
    requires HasAt(t, a, v) && IsNumeral(v) && UnitTail(t, a + |v|, z)
    ensures MatchAt(t, i) == Some(Match(i, z, v, None))
  {
    var b := NumeralThenUnit(t, a, v, z);
    MatchAtWithoutStd(t, i, a, b, z, v, None);
  }

  /** The layout with a ` ± <std>` part, from the start of the `val` numeral. */
  lemma MatchWithStdFrom(t: string, i: nat, a: nat, z: nat, v: string, s: string)
    requires HasAt(t, i, Label) && SkipSpaces(t, i + |Label|) == a
    requires HasAt(t, a, v) && IsNumeral(v) && StdTail(t, a + |v|, s, z)
    ensures MatchAt(t, i) == Some(Match(i, z, v, Some(s)))
  {
    var b := NumeralThenStd(t, a, v, s, z);
    var d, e := StdEndOfTail(t, b, s, z);
    MatchAtWithStd(t, i, a, b, d, e, z, v, Some(s));
  }

  /** Spaces up to a numeral are all the spaces there. */
  lemma SpacesBeforeNumeral(t: string, p: nat, a: nat, v: string)
    requires AllSpaces(t, p, a) && HasAt(t, a, v) && IsNumeral(v)
    ensures SkipSpaces(t, p) == a
  {
    NumeralChars(v);
    CharOfOccurrence(t, a, v, 0);
    SkipSpacesTo(t, p, a);
  }

  /** A numeral followed by the unit tail is scanned whole, and the unit
      is found after it. */
  lemma NumeralThenUnit(t: string, a: nat, v: string, z: nat) returns (b: nat)
    requires HasAt(t, a, v) && IsNumeral(v) && UnitTail(t, a + |v|, z)
    ensures b == a + |v| && t[a..b] == v
    ensures ScanNumeral(t, a) == EndsAt(b) && StdEnd(t, b).NoStd? && UnitEnd(t, b) == EndsAt(z)
  {
    b := NumeralThenUnitEnd(t, a, v, z);
    UnitTailNoStd(t, b, z);
  }

  /** A numeral followed by a `± std` tail is scanned whole. */
  lemma NumeralThenStd(t: string, a: nat, v: string, s: string, z: nat) returns (b: nat)
    requires HasAt(t, a, v) && IsNumeral(v) && StdTail(t, a + |v|, s, z)
    ensures b == a + |v| && t[a..b] == v && ScanNumeral(t, a) == EndsAt(b) && StdTail(t, b, s, z)
  {
    b := a + |v|;
    StdTailStart(t, b, s, z);
    ScanNumeralExact(t, a, v);
  }

  /** A maximal run of spaces is the one `SkipSpaces` finds. */
  lemma {:induction false} SkipSpacesTo(t: string, p: nat, q: nat)
    requires AllSpaces(t, p, q) && (q < |t| ==> !IsSpace(t[q]))
    ensures SkipSpaces(t, p) == q
    decreases q - p
  {
    if p < q {
      SkipSpacesTo(t, p + 1, q);
    }
  }

  /** `SkipSpaces` passes over spaces only. */
  lemma {:induction false} SpacesSkipped(t: string, p: nat)
    requires p <= |t|
    ensures AllSpaces(t, p, SkipSpaces(t, p))
    decreases |t| - p
  {
    if p < |t| && IsSpace(t[p]) {
      SpacesSkipped(t, p + 1);
    }
  }

  /** A unit tail starts with a space or the `t` of `tokens/s`. */
  lemma UnitTailStart(t: string, p: int, z: int)
    requires UnitTail(t, p, z)
    ensures 0 <= p < |t| && !IsNumeralChar(t[p]) && t[p] != PlusMinus
  {
    var c :| AllSpaces(t, p, c) && HasAt(t, c, Unit) && z == c + |Unit|;
    CharOfOccurrence(t, c, Unit, 0);
  }

  /** A `± std` tail starts with a space or the `±`. */
  lemma StdTailStart(t: string, p: int, s: string, z: int)
    requires StdTail(t, p, s, z)
    ensures 0 <= p < |t| && !IsNumeralChar(t[p])
  {
    var c, d :| && AllSpaces(t, p, c) && HasAt(t, c, [PlusMinus]) && AllSpaces(t, c + 1, d)
                && HasAt(t, d, s) && IsNumeral(s) && UnitTail(t, d + |s|, z);
    CharOfOccurrence(t, c, [PlusMinus], 0);
  }

  /** `UnitEnd` finds the unit exactly where a unit tail ends. */
  lemma UnitEndIff(t: string, p: nat, z: nat)
    requires p <= |t|
    ensures UnitEnd(t, p) == EndsAt(z) <==> UnitTail(t, p, z)
  {
    if UnitTail(t, p, z) {
      var c :| AllSpaces(t, p, c) && HasAt(t, c, Unit) && z == c + |Unit|;
      CharOfOccurrence(t, c, Unit, 0);
      SkipSpacesTo(t, p, c);
    }
    if UnitEnd(t, p) == EndsAt(z) {
      SpacesSkipped(t, p);
    }
  }

  /** Where `tokens/s` follows the spaces, no `±` does. */
  lemma UnitTailNoStd(t: string, p: nat, z: nat)
    requires p <= |t| && UnitTail(t, p, z)
    ensures StdEnd(t, p).NoStd?
  {
    var c :| AllSpaces(t, p, c) && HasAt(t, c, Unit) && z == c + |Unit|;
    CharOfOccurrence(t, c, Unit, 0);
    SkipSpacesTo(t, p, c);
  }

  /** What `StdEnd` finds is a `± std` tail. */
  lemma TailOfStdEnd(t: string, p: nat)
    requires p <= |t| && StdEnd(t, p).Std?
    ensures var r := StdEnd(t, p); StdTail(t, p, t[r.d..r.e], r.z)
  {
    var r := StdEnd(t, p);
    var c := StdEndParts(t, p);
    StdTailOfScan(t, p, c, r.d, r.e, r.z);
  }

  /** What `StdEnd` found, step by step: the spaces, the `±` at `c`, the
      spaces, the numeral and the unit. */
  lemma StdEndParts(t: string, p: nat) returns (c: nat)
    requires p <= |t| && StdEnd(t, p).Std?
    ensures var r := StdEnd(t, p);
      && AllSpaces(t, p, c) && c < |t| && t[c] == PlusMinus && AllSpaces(t, c + 1, r.d)
      && ScanNumeral(t, r.d) == EndsAt(r.e) && UnitEnd(t, r.e) == EndsAt(r.z)
  {
    c := SkipSpaces(t, p);
    SpacesSkipped(t, p);
    SpacesSkipped(t, c + 1);
  }

  /** The `± std` tail, from what the scanner found. */
  lemma StdTailOfScan(t: string, p: nat, c: nat, d: nat, e: nat, z: nat)
    requires AllSpaces(t, p, c) && c < |t| && t[c] == PlusMinus && AllSpaces(t, c + 1, d)
    requires ScanNumeral(t, d) == EndsAt(e) && UnitEnd(t, e) == EndsAt(z)
    ensures StdTail(t, p, t[d..e], z)
  {
    ScanNumeralSound(t, d);
    SliceHasAt(t, d, e);
    UnitEndIff(t, e, z);
    StdTailFrom(t, p, c, d, t[d..e], z);
  }

  /** The `± std` tail, given where the `±` and the numeral start. */
  lemma StdTailFrom(t: string, p: nat, c: nat, d: nat, s: string, z: nat)
    requires AllSpaces(t, p, c) && c < |t| && t[c] == PlusMinus && AllSpaces(t, c + 1, d)
    requires HasAt(t, d, s) && IsNumeral(s) && UnitTail(t, d + |s|, z)
    ensures StdTail(t, p, s, z)
  {
    assert HasAt(t, c, [PlusMinus]);
  }

  /** A `± std` tail is what `StdEnd` finds. */
  lemma StdEndOfTail(t: string, p: nat, s: string, z: nat) returns (d: nat, e: nat)
    requires p <= |t| && StdTail(t, p, s, z)
    ensures StdEnd(t, p) == Std(d, e, z) && t[d..e] == s
  {
    var c :| exists d :: && AllSpaces(t, p, c) && HasAt(t, c, [PlusMinus]) && AllSpaces(t, c + 1, d)
                        && HasAt(t, d, s) && IsNumeral(s) && UnitTail(t, d + |s|, z);
    d :| && AllSpaces(t, p, c) && HasAt(t, c, [PlusMinus]) && AllSpaces(t, c + 1, d)
         && HasAt(t, d, s) && IsNumeral(s) && UnitTail(t, d + |s|, z);
    e := StdEndAt(t, p, c, d, s, z);
  }

  /** `StdEnd` along a `± std` tail whose `±` is at `c` and numeral at `d`. */
  lemma StdEndAt(t: string, p: nat, c: nat, d: nat, s: string, z: nat) returns (e: nat)
    requires AllSpaces(t, p, c) && HasAt(t, c, [PlusMinus]) && AllSpaces(t, c + 1, d)
    requires HasAt(t, d, s) && IsNumeral(s) && UnitTail(t, d + |s|, z)
    ensures e == d + |s| && StdEnd(t, p) == Std(d, e, z) && t[d..e] == s
  {
    e := StdScanOfTail(t, p, c, d, s, z);
    StdEndOfScan(t, p, c, d, e, z);
  }

  /** What the scanner finds along a `± std` tail. */
  lemma StdScanOfTail(t: string, p: nat, c: nat, d: nat, s: string, z: nat) returns (e: nat)
    requires AllSpaces(t, p, c) && HasAt(t, c, [PlusMinus]) && AllSpaces(t, c + 1, d)
    requires HasAt(t, d, s) && IsNumeral(s) && UnitTail(t, d + |s|, z)
    ensures SkipSpaces(t, p) == c && c < |t| && t[c] == PlusMinus && SkipSpaces(t, c + 1) == d
    ensures e == d + |s| && t[d..e] == s && ScanNumeral(t, d) == EndsAt(e) && UnitEnd(t, e) == EndsAt(z)
  {
    SignThenSpaces(t, p, c, d, s);
    e := NumeralThenUnitEnd(t, d, s, z);
  }

  /** Spaces, the `±` at `c`, and spaces up to a numeral at `d`. */
  lemma SignThenSpaces(t: string, p: nat, c: nat, d: nat, s: string)
    requires AllSpaces(t, p, c) && HasAt(t, c, [PlusMinus]) && AllSpaces(t, c + 1, d)
    requires HasAt(t, d, s) && IsNumeral(s)
    ensures SkipSpaces(t, p) == c && c < |t| && t[c] == PlusMinus && SkipSpaces(t, c + 1) == d
  {
    CharOfOccurrence(t, c, [PlusMinus], 0);
    SkipSpacesTo(t, p, c);
    SpacesBeforeNumeral(t, c + 1, d, s);
  }

  /** A numeral followed by a unit tail: the scanner takes the numeral whole
      and finds the unit after it. */
  lemma NumeralThenUnitEnd(t: string, d: nat, s: string, z: nat) returns (e: nat)
    requires HasAt(t, d, s) && IsNumeral(s) && UnitTail(t, d + |s|, z)
    ensures e == d + |s| && t[d..e] == s && ScanNumeral(t, d) == EndsAt(e) && UnitEnd(t, e) == EndsAt(z)
  {
    e := d + |s|;
    UnitTailStart(t, e, z);
    ScanNumeralExact(t, d, s);
    UnitEndIff(t, e, z);
  }

  // ---------------------------------------------------------------------------
  // finditer and the last match
  // ---------------------------------------------------------------------------

  /** The outcome of trying the pattern at every position of `t`. */
  function Table(t: string): (tab: seq<Option<Match>>)
    ensures |tab| == |t|
    ensures forall i :: 0 <= i < |t| ==> tab[i] == MatchAt(t, i)
  {
    seq(|t|, i requires 0 <= i < |t| => MatchAt(t, i))
  }

  /** Every match in the table starts where it is recorded and ends after
      that, within the text. */
  predicate Spanned(tab: seq<Option<Match>>) {
    forall i :: 0 <= i < |tab| && tab[i].Some? ==>
      tab[i].value.start == i && i < tab[i].value.end <= |tab|
  }

  /** No position strictly inside a match is itself the start of a match. */
  predicate Unnested(tab: seq<Option<Match>>) {
    forall i, j :: 0 <= i < j < |tab| && tab[i].Some? && j < tab[i].value.end ==> tab[j].None?
  }

  /** `finditer` over a table of per-position matches, from position `p`:
      try each position in turn, and resume after the end of every match
      found. */
  function Scan(tab: seq<Option<Match>>, p: nat): (ms: seq<Match>)
    requires Spanned(tab) && p <= |tab|
    ensures forall k :: 0 <= k < |ms| ==> p <= ms[k].start < |tab| && tab[ms[k].start] == Some(ms[k])
    decreases |tab| - p
  {
    if p == |tab| then []
    else
      match tab[p]
      case Some(m) => [m] + Scan(tab, m.end)
      case None => Scan(tab, p + 1)
  }

  /** Position `i` holds a match and no later position does. */
  predicate LastAt(tab: seq<Option<Match>>, i: int) {
    && 0 <= i < |tab|
    && tab[i].Some?
    && (forall j :: i < j < |tab| ==> tab[j].None?)
  }

  /** The scan from `p` finds nothing exactly when no position from `p` on
      holds a match, and otherwise its final match is the one at the last
      position holding a match: since matches do not nest, the scan never
      skips over the start of one. */
  lemma {:induction false} ScanLast(tab: seq<Option<Match>>, p: nat)
    requires Spanned(tab) && Unnested(tab) && p <= |tab|
    ensures |Scan(tab, p)| == 0 <==> forall j :: p <= j < |tab| ==> tab[j].None?
    ensures |Scan(tab, p)| > 0 ==> LastAt(tab, Scan(tab, p)[|Scan(tab, p)| - 1].start)
    decreases |tab| - p
  {
    if p < |tab| {
      match tab[p]
      case Some(m) =>
        ScanLast(tab, m.end);
        var rest := Scan(tab, m.end);
        var ms := Scan(tab, p);
        assert ms == [m] + rest;
        if |rest| == 0 {
          assert ms[|ms| - 1] == m;
          assert LastAt(tab, p);
        } else {
          assert ms[|ms| - 1] == rest[|rest| - 1];
        }
      case None =>
        ScanLast(tab, p + 1);
        assert Scan(tab, p) == Scan(tab, p + 1);
    }
  }

  /** The table of the throughput pattern is spanned and unnested: inside a
      match the only `T` is the first character of the label. */
  lemma TableWellFormed(t: string)
    ensures Spanned(Table(t)) && Unnested(Table(t))
  {
    var tab := Table(t);
    forall i, j | 0 <= i < j < |tab| && tab[i].Some? && j < tab[i].value.end
      ensures tab[j].None?
    {
      MatchWithoutT(t, i);
      assert t[j] != 'T';
    }
  }

  /** `_THROUGHPUT_RE.finditer(t)`. */
  function FindIter(t: string): (ms: seq<Match>)
    ensures forall k :: 0 <= k < |ms| ==> ms[k].start < |t| && MatchAt(t, ms[k].start) == Some(ms[k])
  {
    TableWellFormed(t);
    Scan(Table(t), 0)
  }

  /** The pattern matches at `i` and at no later position. */
  ghost predicate IsLastMatch(t: string, i: int) {
    && 0 <= i < |t|
    && MatchAt(t, i).Some?
    && (forall j :: i < j < |t| ==> MatchAt(t, j).None?)
  }

  /** finditer finds nothing exactly when the pattern matches nowhere. */
  lemma FindIterEmpty(t: string)
    ensures |FindIter(t)| == 0 <==> forall j :: 0 <= j < |t| ==> MatchAt(t, j).None?
  {
    var tab := Table(t);
    TableWellFormed(t);
    ScanLast(tab, 0);
    assert FindIter(t) == Scan(tab, 0);
  }

  /** The final match finditer finds is the one at the last matching
      position. */
  lemma FindIterLast(t: string)
    requires |FindIter(t)| > 0
    ensures IsLastMatch(t, FindIter(t)[|FindIter(t)| - 1].start)
  {
    var tab := Table(t);
    TableWellFormed(t);
    ScanLast(tab, 0);
    var ms := Scan(tab, 0);
    assert FindIter(t) == ms;
    assert LastAt(tab, ms[|ms| - 1].start);
  }

  /** `parse_throughput_tokens_per_s(t)`: the `val` group of the last match,
      as the numeral text the benchmark printed, or `None` when the pattern
      matches nowhere. The `± std` group is recognised but never returned. */
  function Extract(t: string): (r: Option<string>)
    ensures r.None? <==> forall j :: 0 <= j < |t| ==> MatchAt(t, j).None?
  {
    var ms := FindIter(t);
    FindIterEmpty(t);
    if |ms| == 0 then None
    else Some(ms[|ms| - 1].val)
  }

  /** At most one position is the last matching one. */
  lemma LastMatchUnique(t: string, i: int, j: int)
    requires IsLastMatch(t, i) && IsLastMatch(t, j)
    ensures i == j
  {
  }

  /** The value extracted is the `val` group of the match at the last
      matching position: later lines override earlier ones. */
  lemma ExtractLast(t: string, i: int)
    requires IsLastMatch(t, i)
    ensures Extract(t) == Some(MatchAt(t, i).value.val)
  {
    var ms := FindIter(t);
    FindIterEmpty(t);
    assert |ms| > 0;
    FindIterLast(t);
    LastMatchUnique(t, i, ms[|ms| - 1].start);
  }

  /** A value extracted is always a numeral of the grammar, so Python's
      `float()` conversion of it cannot fail. */
  lemma ExtractNumeral(t: string)
    ensures Extract(t).Some? ==> IsNumeral(Extract(t).value)
  {
    var ms := FindIter(t);
    if |ms| > 0 {
      FindIterLast(t);
      MatchAtNumerals(t, ms[|ms| - 1].start);
    }
  }
}

=== FILE: wrappers.dfy ===
/** Optional values and success/failure results, used wherever the Python code
    returns `None` or raises `ValueError`. */
module Wrappers {

  /** A value that may be absent (Python's `X | None`). */
  datatype Option<+T> = None | Some(value: T) {

    /** The wrapped value, or `default` when absent. */
    function GetOr(default: T): T {
      match this
      case Some(v) => v
      case None => default
    }
  }

  /** The outcome of an operation that can fail with an error of type `E`
      (a raised exception in the Python code). */
  datatype Result<+T, +E> = Success(value: T) | Failure(error: E)
}
